=== FILE: README.md ===
# Shopee affiliate dashboard: request signing, reply handling and reductions

A Dafny model of the core of `app.py`, a Streamlit dashboard that fetches
conversion reports from the Shopee Affiliate Open API and summarises them. The
model covers these parts of the app:

- **Signing (`gerar_headers`).** The signature is the SHA-256 digest of app id,
  timestamp, payload and secret, concatenated with no separators. The
  `Authorization` header carries id, timestamp and signature.
- **The conversion-report request.**
  - The GraphQL document is built with the two purchase-time boundaries.
  - Its compact JSON body is written with Python's ASCII-only string escaping.
  - The POST is signed over that very body.
- **The reply pair `(nodes, error)` of `buscar_dados_shopee`.**
  - An `errors` key gives the first error message.
  - Otherwise the nodes are read along `data`, then `conversionReport`, then
    `nodes`, with `{}`/`[]` defaults.
  - A raised exception becomes the error text.
- **The row-flattening loop.** It produces one row per (node, order, item),
  copying the node's fields next to the item's. The first missing key or bad
  number stops the whole loop.
- **The dashboard reductions.**
  - Completed and pending commission totals are chosen by a case-insensitive
    substring match on the status.
  - Their sum is the gross estimate, and the 11% net figure is derived from it.
  - Commission is grouped per status.
  - The ten items with the largest quantity sold are listed.
- **Which screen the page ends on.** This is the error banner, the "no data"
  notice, the panel, or an uncaught exception.

The model represents Python and JSON values as follows:

- A `Json` datatype stands for the parsed response.
- Python's `None` is `JNull`.
- A JSON object is a list of pairs in which the last duplicate key wins, as with
  `json.loads`. Iterating it yields each key once, in order of first
  occurrence.
- Python exceptions are `PyError` values carried in a `Result`.

The clock (`time.time()`) and SHA-256 are parameters. The two window boundaries
are parameters too, because `pytz` computes them.

## Model

| member | source | states |
|---|---|---|
| Signer.SigningString | app.py:22 | the hashed string is app id, timestamp, payload and secret in that order with nothing between them; each part is recoverable at its position |
| Signer.TimestampText | app.py:21 | the timestamp text reads back as the clock reading truncated toward zero, and contains no comma |
| Signer.SignHeaders | app.py:24-26 | exactly two headers: the JSON content type first, then Authorization |
| Signer.SignHeadersEmbedsSignature | app.py:20-27 | the Authorization value names the app id, the clock's timestamp and the digest of the signing string over exactly the payload given |
| Signer.AuthorizationValue | app.py:26 | the Authorization value is the `SHA256 Credential=` prefix, the app id, `, Timestamp=`, the timestamp, `, Signature=` and the signature, each at its own position |
| Signer.ParseAuthorization | app.py:26 | the header reader yields comma-free id and timestamp |
| Signer.ParseAuthorizationSound | app.py:26 | any value the reader accepts is exactly the header rendered from the three parts it returns |
| Signer.ParseAuthorizationRoundTrip | app.py:26 | a header rendered from a comma-free id and timestamp reads back as that id, timestamp and signature |
| Signer.HeaderValue | app.py:24-27 | the value of the first header with the given name, no earlier header having that name; or none, when no header has it |
| Signer.SignedBodyAccepted | app.py:20-27 | a receiver recomputing the digest from id, timestamp, the body it received and the secret accepts headers signed over that body |
| Signer.OtherBodyRefused | app.py:61-64 | with a collision-free digest, headers signed over one body are refused with any other body, so the body must be serialized once and sent as signed |
| Decimal.NatToString | app.py:21 | decimal digits without leading zeros, of the right magnitude |
| Decimal.ParseIntOfIntToString | app.py:21 | `str` of an integer reads back as that integer |
| Decimal.IntToStringInjective | app.py:21 | different integers give different texts |
| Decimal.Truncate | app.py:21 | `int()` of a float truncates toward zero, for negative readings too |
| Decimal.ToFloat | app.py:93 | `float()` of a JSON value: a number as it is, a boolean as 1 or 0, a string as the decimal it spells or ValueError, None/list/dict TypeError |
| Decimal.DecimalTexts | app.py:93 | `float("12.34")` is 12.34 and `float("5")` is 5 |
| Decimal.ParseDecimalOfIntToString | app.py:96 | `float()` of an integer's text is that integer |
| Query.ConversionQuery | app.py:43-59 | the report query with the start boundary's decimal text after `purchaseTimeStart: ` and the end boundary's after `purchaseTimeEnd: `, neither holding a comma, then the fixed limit and field list; each part at its own position |
| Query.QueryBoundaries | app.py:43-59 | every document the reader accepts is exactly the report query for the two boundaries it returns |
| Query.QueryBoundariesRoundTrip | app.py:43-59 | the report query for a window reads back as that window |
| Query.ConversionQueryInjective | app.py:43-59 | different windows give different documents |
| Body.Escape | app.py:61 | an escaped string is printable ASCII only, between one and twelve characters per input character |
| Body.ParseHex4OfHex4 | app.py:61 | four lowercase hex digits read back as the 16-bit unit they encode |
| Body.DecodeOneOfEscapeChar | app.py:61 | every character's escape, including surrogate pairs beyond the Basic Multilingual Plane, decodes to that character whatever follows |
| Body.UnescapeEscape | app.py:61 | decoding the escaped form of any string gives it back |
| Body.SerializeBody | app.py:61 | the compact body is printable ASCII |
| Body.ParseSerializeBody | app.py:61 | reading the query out of the body gives back the query serialized |
| Body.SerializeBodyInjective | app.py:61 | different queries give different bodies |
| Request.ConversionRequest | app.py:61-64 | the POST goes to the endpoint with headers signed over the very body it carries |
| Request.ConversionRequestWellFormed | app.py:39-64 | the request passes the signature check and its body carries exactly the requested window |
| Json.Lookup | app.py:65 | a key's value is its last occurrence in the object, and a missing key is reported as missing |
| Json.Contains | app.py:67 | `in` on a dict tests keys, on a list elements, on a string substrings, and raises TypeError otherwise |
| Json.Subscript | app.py:68 | `d[key]` gives the value on a dict, KeyError for a missing key, TypeError on a non-dict |
| Json.At | app.py:68 | `xs[i]` indexes lists and strings from either end (a string gives a one-character string), IndexError out of range, KeyError on a dict, TypeError on anything else |
| Json.GetOr | app.py:70 | `.get(key, default)` gives the value or the default on a dict and AttributeError on anything else |
| Json.Iterate | app.py:85-88 | `for x in d` walks a list's elements, a string's one-character strings, or a dict's keys, each key once; it raises TypeError on other values |
| Json.Keys | app.py:85-88 | iterating a dict yields strings: exactly the keys of the object, each once, and one at least when the object has a member |
| Json.KeysInFirstOccurrenceOrder | app.py:85-88 | dict keys come in order of first occurrence: a key listed earlier occurs in the object before any occurrence of a later one |
| Json.Truthy | app.py:80-82 | a list, string or dict is true exactly when iterating it yields something; None, False and zero are false |
| Envelope.FirstErrorMessage | app.py:68 | the message of the first entry of an `errors` list; KeyError for a missing `errors`, IndexError for an empty list, KeyError 0 for a dict, TypeError for a non-dict reply |
| Envelope.ReportNodes | app.py:70 | AttributeError when the reply, a present `data` or a present `conversionReport` is not a dict (a null one included); otherwise `[]` when `data`, `conversionReport` or `nodes` is missing, and the `nodes` value when the whole path is present |
| Envelope.ReadEnvelope | app.py:67-71 | never both nodes and an error; an `errors` key leaves no nodes; without it the error side is empty exactly when the node path reads; a non-container reply raises TypeError |
| Envelope.HandleResponse | app.py:62-73 | a failed POST or parse becomes its error text with no nodes; never both sides |
| Envelope.ErrorsEnvelope | app.py:67-68 | an error envelope gives no nodes and the first error's message verbatim |
| Envelope.DataEnvelope | app.py:70-71 | without `errors`, a missing `data`, `conversionReport` or `nodes` gives `[]` and the present `nodes` value is passed through |
| Envelope.ExactlyOneSide | app.py:67-71 | exactly one side is filled unless the API itself sends a null message or null nodes |
| Envelope.ReadErrorBody | app.py:67-68 | the API's error body gives its first message and no nodes |
| Envelope.ReadDataBody | app.py:70-71 | the API's data body gives its node list and no error |
| Envelope.InvalidSignatureReply | app.py:67-68 | a rejected signature reaches the page as the text "Invalid Signature" |
| Normalize.MakeRow | app.py:89-97 | a row is made exactly when the seven fields are present and `float()` accepts both amounts; it holds the node's purchase time, status and commission and the item's name, quantity and price, the completion time being empty exactly when falsy; otherwise the error is that of the first failing step in the literal's order: purchase time, completion time, status, commission and its `float()`, item name, quantity, price and its `float()` |
| Normalize.ItemRows | app.py:88-97 | a row list exactly when every item makes a row, row k made from item k; otherwise the error of the first item that fails |
| Normalize.OrderRowsVisits | app.py:88-97 | one order gives rows exactly when its item list can be walked and every (node, item) pair makes a row, one row per pair in order |
| Normalize.OrderListRowsVisits | app.py:87-97 | the same for a node's order list: rows exactly when every order's pairs can be walked and all make rows, in order |
| Normalize.NodeRowsVisits | app.py:87-97 | the same for one node, through `n.get('orders', [])` |
| Normalize.NodeListRowsVisits | app.py:85-97 | the same for the node list |
| Normalize.BuildRowsVisits | app.py:84-97 | for any reply, whatever the JSON types of its amounts: a table exactly when the reply can be walked and every visited (node, item) pair makes a row; then one row per visited pair, row k made from pair k |
| Normalize.NodeWithoutOrders | app.py:87 | a node without orders, or with an empty list, gives no rows and reads none of its fields |
| Normalize.MakeRowOfSchema | app.py:89-97 | on a schema node and item the row is the reference row |
| Normalize.MakeRowOfTextAmounts | app.py:93-96 | with amounts sent as strings, a row is made exactly when both spell a decimal, carrying the values they spell; a commission that does not raises ValueError |
| Normalize.TextAmountExample | app.py:89-97 | a commission of "12.34" and a price of "5" give a row worth 12.34 priced 5, and a completion time of 0 gives NaT |
| Normalize.BuildRowsOfSchema | app.py:84-97 | on a reply that follows the API schema the loop never raises and equals the reference flattening |
| Normalize.FlattenLength | app.py:84-97 | the table has one row per item across all orders of all nodes |
| Normalize.FlattenAt | app.py:85-89 | item k of order j of node i sits after the items of earlier nodes and orders, and carries that node's and item's fields |
| Normalize.ItemlessConversion | app.py:87-88 | a conversion without items contributes no rows |
| Aggregate.FindIgnoringCase | app.py:105-106 | the first position at or after the start where the pattern occurs ignoring ASCII case, or none exists |
| Aggregate.CompletedStatus | app.py:105-106 | COMPLETED counts as completed and not as pending |
| Aggregate.SettledStatus | app.py:105-106 | settled in any case counts as completed and not as pending |
| Aggregate.PendingStatus | app.py:105-106 | PENDING in any case counts as pending and not as completed |
| Aggregate.CancelledStatus | app.py:105-106 | CANCELLED is in neither total |
| Aggregate.InvalidStatus | app.py:105-106 | INVALID and a missing status are in neither total |
| Aggregate.CommissionInBounds | app.py:105-109 | a bucket that no row's status falls in sums to zero; non-negative commissions give a non-negative sum |
| Aggregate.CompletedTotal | app.py:105-108 | zero when no status contains COMPLETE or SETTLED in any case; non-negative when no commission is negative |
| Aggregate.PendingTotal | app.py:106-109 | zero when no status contains PENDING in any case; non-negative when no commission is negative |
| Aggregate.EstimatedTotal | app.py:110 | with no negative commission, at least each of the two totals; zero when no status matches either filter |
| Aggregate.NetEstimate | app.py:115 | the net figure is the estimate less 11% of it, so it lies between zero and a non-negative estimate |
| Aggregate.TotalsCountPerItem | app.py:84-110 | each total weights every conversion's commission by its number of items, so an itemless conversion counts nowhere |
| Aggregate.EstimatedTotalByMatches | app.py:105-110 | the gross estimate counts once each row that passes one filter and twice a row whose status passes both |
| Grouping.GroupSumSpec | app.py:122 | group keys are distinct and are exactly the keys present, each group holds the sum of its key's amounts, and groups add up to the total |
| Grouping.GroupSumKeys | app.py:122 | group keys are distinct and are exactly the keys present |
| Grouping.GroupSumSums | app.py:122 | each group holds the sum of its key's amounts |
| Grouping.GroupSumTotal | app.py:122 | the groups add up to the sum of all amounts |
| Grouping.GroupSumKeepsSumWhere | app.py:122 | for any choice of keys, the groups with a chosen key add up to the entries with one: grouping loses and doubles nothing |
| Grouping.Insert | app.py:129 | insertion keeps descending order and adds exactly the new element |
| Grouping.SortDesc | app.py:129 | a descending permutation of the groups |
| Grouping.InsertKeepsKeysDistinct | app.py:129 | inserting a new key keeps keys distinct |
| Grouping.SortKeepsKeysDistinct | app.py:129 | sorting keeps keys distinct |
| Grouping.Largest | app.py:129 | min(n, size) groups, a sub-multiset of the input, in descending order, with distinct keys when the input has them; any group left out means n were shown, none smaller than it |
| Grouping.LargestFromGroups | app.py:129 | every group shown is one of the input groups |
| Tables.StatusEntriesSpec | app.py:122 | the grouping sees exactly the rows with a status and sums commission per status |
| Tables.GroupByStatus | app.py:122 | TypeError exactly when some status is a list or dict (unhashable); otherwise one entry per status present, none for None, each holding the commission of exactly the rows with that status |
| Tables.QtyEntriesSpec | app.py:129 | the grouping sees exactly the rows with an item name and sums quantity per name |
| Tables.Top10 | app.py:129 | TypeError exactly when some item name is unhashable or the quantity column is not numeric (a non-number, or None throughout); otherwise at most ten distinct item names, largest first, each with the quantity sold under it, and an item left out sold no more than the tenth |
| Dashboard.Summarize | app.py:104-129 | TypeError exactly when the status chart or the top-ten table raises; otherwise the panel holds the completed and pending totals, their sum as the estimate, the net figure of that estimate, the status chart and the top-ten table |
| Dashboard.StatusEntriesInBucket | app.py:105-122 | the entries the status chart groups carry, per filter, the commission that filter's total counts |
| Dashboard.TotalsMatchStatusChart | app.py:105-122 | the completed and pending metrics equal the sums of the status-chart bars whose status passes the same filter |
| Dashboard.SummarizeAsWritten | app.py:99-105 | an empty table raises KeyError for the status column; otherwise the panel is computed |
| Dashboard.ErrorShown | app.py:80 | the `if erro:` test: a caught exception always shows the banner, a string or list message and a transport text show it exactly when non-empty, and a None message never does |
| Dashboard.PageAsWritten | app.py:80-137 | the page as the source behaves: the error banner exactly when the error side is truthy; the "no data" notice exactly when there is no error and the nodes are falsy; a panel exactly when, past those, the rows build and the panel as written computes, and it is the summary of a non-empty table; a crash exactly when the row loop or the panel as written raises, carrying that error |
| Dashboard.Page | app.py:80-137 | the corrected page: the error banner exactly when the error side is truthy; the "no data" notice exactly when there is no error and no rows; a panel exactly when, past those, the table is non-empty and its summary computes, and it is that summary; a crash exactly when the row loop or the summary raises, carrying that error, and only a row-loop error or a grouping TypeError |
| Dashboard.PagesDifferOnlyOnEmptyTable | app.py:80-105 | the page as written and the corrected page differ exactly on replies with truthy nodes and no rows, where the former raises KeyError |
| Dashboard.ItemlessReplyCrashes | app.py:82-105 | a reply whose only node has an empty `orders` list crashes the page as written |
| Dashboard.SummarizeEmpty | app.py:104-129 | a table with no rows gives zero totals and empty tables |
| Dashboard.PageOfSchema | app.py:80-129 | for a reply that follows the schema the corrected page never crashes, shows "no data" exactly when no conversion has items, and otherwise totals weight each commission by its item count |
| Dashboard.PageAsWrittenOfSchema | app.py:80-105 | for a reply that follows the schema the page as written crashes with KeyError exactly when there are conversions but none has an item, and otherwise shows what the corrected page shows |
| Dashboard.TwoConversionExample | app.py:105-115 | one completed conversion of 10.00 and one pending of 3.00 give 10.00 completed, 13.00 estimated and 11.57 net |

## Left out

- The Streamlit user interface is not modelled. This covers the sidebar inputs,
  the date picker and its tuple check, the metric formatting `R$ {x:,.2f}`, the
  charts, the tables and the expander. The model starts from the reply pair and
  ends at the values those widgets display.
- `st.cache_data(ttl=600)` is left out. The model computes one fetch from its
  inputs. The cache keys on the two dates only, while the app id and secret
  are globals. So for up to ten minutes after the credentials change, the app
  can show a stale result, such as an "Invalid Signature" reply.
- The `pytz` localisation of the window boundaries is left out. `Query` and
  `Request` take the two boundaries as integers.
- The date conversion of the purchase and completion times
  (`pd.to_datetime(..., unit='s').tz_convert`) is left out. Rows keep the raw
  JSON values, and a completion time is kept or made empty by its truthiness.
  A conversion error of `to_datetime` is not modelled.
- `requests.post` and `response.json()` are left out. `HandleResponse` takes
  either the parsed JSON value or the transport's error text.
- The text of `str(e)` for a caught exception is left out. It is modelled as
  the exception itself.
- SHA-256 is a function parameter, because its internals are not part of the
  app.
- `time.time()` is a real-valued parameter.
- `Grouping.GroupSum` lists groups in order of first appearance. pandas sorts
  the group keys, and its sort of mixed-type keys can raise. Only the set of
  groups and their sums are modelled; the row order of the status chart is not.
- Tables.Top10: ties are broken by the stable descending sort of the groups in
  first-appearance order, not in pandas' sorted-key order.
- Tables.Top10: any boolean quantity is a TypeError. A column of booleans only
  is a numeric bool column in pandas, which sums and ranks.
- Tables.Top10: item names that are equal numbers of different types (1, 1.0,
  True) form one group in pandas. The model keeps them apart. API item names
  are strings.
- Tables.GroupByStatus: statuses that are equal numbers of different types form
  one group in pandas. The model keeps them apart. API statuses are strings.
- Aggregate.FindIgnoringCase: case folding is ASCII only. Python's
  `re.IGNORECASE` also folds some non-ASCII letters such as the long s and the Kelvin sign.
- Dashboard.Summarize: the `.str` accessor raising AttributeError when no status
  is a string is not modelled. The model treats a non-string status as not
  matching (`na=False`), so the totals never raise.
- Floating-point rounding of the sums and of `* 0.89` is not modelled. Amounts
  are exact reals.
- Decimal.ToFloat: accepts only sign, digits and an optional fraction. Python's
  `float()` also accepts surrounding whitespace, exponents, underscores, `inf`
  and `nan`.
- Signer.SignedBodyAccepted: requires an app id without a comma, because the
  header format has no escaping. With a comma in the id, the header no longer
  reads back unambiguously.
- Signer.SignHeadersEmbedsSignature: requires a comma-free app id, for the same
  reason.
- Signer.OtherBodyRefused: requires a comma-free app id, for the same reason.
- Signer.ParseAuthorizationRoundTrip: requires a comma-free id and timestamp,
  for the same reason. The timestamp is always comma-free.
- Request.ConversionRequestWellFormed: requires a comma-free app id, for the
  same reason.
- Normalize.BuildRowsOfSchema: the schema replies send amounts as JSON numbers.
  For amounts sent as decimal strings, Normalize.MakeRowOfTextAmounts states
  when each row is made and what it holds, and Normalize.BuildRowsVisits lifts
  that to the whole loop; no schema-level end-to-end lemma covers them.

## Findings

| source | as written | input that shows it | evidently intended | confidence | as-written member | corrected member |
|---|---|---|---|---|---|---|
| app.py:82-105 | `elif nodes:` only checks that the node list is non-empty, then builds `pd.DataFrame(rows)` and reads `df["Status do Pedido"]`. When no node has any item, `rows` is empty and the DataFrame has no columns, so the read raises KeyError and the page stops. | a reply whose nodes are `[{"orders": []}]`: one conversion without orders | the "no data" notice, as for an empty node list | not executed | Dashboard.ItemlessReplyCrashes | Dashboard.Page |

=== FILE: aggregate.dfy ===
/** The dashboard's metrics over the rows: completed and pending commission
    totals chosen by case-insensitive substring match on the status, their
    sum, and the 11% net figure. */
module Aggregate {
  import opened Wrappers
  import opened Json
  import opened Normalize
  import opened Grouping

  function UpperAscii(c: char): char {
    if 'a' <= c <= 'z' then (c as int - 32) as char else c
  }

  /** `pattern` (upper-case) occurs in `s` at `i` when ASCII case is ignored. */
  predicate MatchesAt(s: string, pattern: string, i: int) {
    0 <= i <= |s| - |pattern| && forall k :: 0 <= k < |pattern| ==> UpperAscii(s[i + k]) == pattern[k]
  }

  /** First position where `pattern` occurs in `s` ignoring ASCII case, searching from `from`. */
  function FindIgnoringCase(s: string, pattern: string, from: nat): (r: Option<nat>)
    ensures r.Some? ==> from <= r.value && MatchesAt(s, pattern, r.value)
    ensures r.Some? ==> forall i :: from <= i < r.value ==> !MatchesAt(s, pattern, i)
    ensures r.None? ==> forall i :: from <= i ==> !MatchesAt(s, pattern, i)
    decreases |s| - from
  {
    if from + |pattern| > |s| then None
    else if MatchesAt(s, pattern, from) then Some(from)
    else FindIgnoringCase(s, pattern, from + 1)
  }

  /** `str.contains(pattern, case=False)` on a string. */
  predicate ContainsIgnoringCase(s: string, pattern: string) {
    FindIgnoringCase(s, pattern, 0).Some?
  }

  /** The status filter of the completed total: `contains("COMPLETE|SETTLED",
      case=False, na=False)`; a value that is not a string never matches. */
  predicate IsCompleted(status: Json) {
    status.JStr? && (ContainsIgnoringCase(status.s, "COMPLETE") || ContainsIgnoringCase(status.s, "SETTLED"))
  }

  /** The status filter of the pending total: `contains("PENDING", case=False, na=False)`. */
  predicate IsPending(status: Json) {
    status.JStr? && ContainsIgnoringCase(status.s, "PENDING")
  }

  datatype Bucket = Completed | Pending

  predicate InBucket(status: Json, b: Bucket) {
    match b
    case Completed => IsCompleted(status)
    case Pending => IsPending(status)
  }

  /** The bucket's status filter as a predicate on group keys. */
  function BucketFilter(b: Bucket): Json -> bool {
    status => InBucket(status, b)
  }

  /** Sum of the commission of the rows whose status falls in the bucket. */
  function CommissionIn(rows: seq<Row>, b: Bucket): real {
    if |rows| == 0 then 0.0
    else
      var last := rows[|rows| - 1];
      CommissionIn(rows[..|rows| - 1], b) + (if InBucket(last.status, b) then last.commission else 0.0)
  }

  /** A bucket no row falls in sums to zero; non-negative commissions give a
      non-negative sum. */
  lemma {:induction false} CommissionInBounds(rows: seq<Row>, b: Bucket)
    ensures (forall i :: 0 <= i < |rows| ==> !InBucket(rows[i].status, b)) ==> CommissionIn(rows, b) == 0.0
    ensures (forall i :: 0 <= i < |rows| ==> rows[i].commission >= 0.0) ==> CommissionIn(rows, b) >= 0.0
    decreases |rows|
  {
    if |rows| > 0 {
      var prev := rows[..|rows| - 1];
      CommissionInBounds(prev, b);
      assert forall i :: 0 <= i < |prev| ==> prev[i] == rows[i];
    }
  }

  /** `df_concluido[...].sum()`: nothing when no status is completed, and not
      negative when no commission is. */
  function CompletedTotal(rows: seq<Row>): (r: real)
    ensures (forall i :: 0 <= i < |rows| ==> !IsCompleted(rows[i].status)) ==> r == 0.0
    ensures (forall i :: 0 <= i < |rows| ==> rows[i].commission >= 0.0) ==> r >= 0.0
  {
    CommissionInBounds(rows, Completed);
    CommissionIn(rows, Completed)
  }

  /** `df_pendente[...].sum()`. */
  function PendingTotal(rows: seq<Row>): (r: real)
    ensures (forall i :: 0 <= i < |rows| ==> !IsPending(rows[i].status)) ==> r == 0.0
    ensures (forall i :: 0 <= i < |rows| ==> rows[i].commission >= 0.0) ==> r >= 0.0
  {
    CommissionInBounds(rows, Pending);
    CommissionIn(rows, Pending)
  }

  /** The gross estimate: completed plus pending; with no negative commission
      it is at least each of them. */
  function EstimatedTotal(rows: seq<Row>): (r: real)
    ensures (forall i :: 0 <= i < |rows| ==> rows[i].commission >= 0.0) ==>
      r >= CompletedTotal(rows) && r >= PendingTotal(rows)
    ensures (forall i :: 0 <= i < |rows| ==> !IsCompleted(rows[i].status) && !IsPending(rows[i].status)) ==> r == 0.0
  {
    CompletedTotal(rows) + PendingTotal(rows)
  }

  /** The net estimate: the gross estimate less a fixed 11%. */
  function NetEstimate(estimated: real): (net: real)
    ensures net + estimated * 11.0 / 100.0 == estimated
    ensures estimated >= 0.0 ==> 0.0 <= net <= estimated
  {
    estimated * 0.89
  }

  lemma {:induction false} CommissionInAppend(a: seq<Row>, b: seq<Row>, bucket: Bucket)
    ensures CommissionIn(a + b, bucket) == CommissionIn(a, bucket) + CommissionIn(b, bucket)
    decreases |b|
  {
    if |b| == 0 {
      assert a + b == a;
    } else {
      var ab := a + b;
      assert ab[..|ab| - 1] == a + b[..|b| - 1];
      assert ab[|ab| - 1] == b[|b| - 1];
      CommissionInAppend(a, b[..|b| - 1], bucket);
    }
  }

  /** Commission of a conversion weighted by a count, when its status falls in the bucket. */
  function Weighted(c: Conversion, count: nat, b: Bucket): real {
    if InBucket(JStr(c.status), b) then c.commission * count as real else 0.0
  }

  lemma WeightedAdd(c: Conversion, x: nat, y: nat, b: Bucket)
    ensures Weighted(c, x + y, b) == Weighted(c, x, b) + Weighted(c, y, b)
  {
    assert c.commission * (x + y) as real == c.commission * x as real + c.commission * y as real;
  }

  /** The rows of one conversion's items all carry its status and commission. */
  lemma {:induction false} CommissionInItems(c: Conversion, items: seq<Item>, b: Bucket)
    ensures CommissionIn(ItemsOf(c, items), b) == Weighted(c, |items|, b)
    decreases |items|
  {
    var rows := ItemsOf(c, items);
    if |items| > 0 {
      var n := |items|;
      assert rows[..n - 1] == ItemsOf(c, items[..n - 1]);
      assert rows[n - 1].status == JStr(c.status);
      assert rows[n - 1].commission == c.commission;
      CommissionInItems(c, items[..n - 1], b);
      WeightedAdd(c, n - 1, 1, b);
    }
  }

  lemma {:induction false} CommissionInOrders(c: Conversion, orders: seq<Order>, b: Bucket)
    ensures CommissionIn(OrdersOf(c, orders), b) == Weighted(c, OrderItems(orders), b)
    decreases |orders|
  {
    if |orders| > 0 {
      CommissionInAppend(ItemsOf(c, orders[0].items), OrdersOf(c, orders[1..]), b);
      CommissionInItems(c, orders[0].items, b);
      CommissionInOrders(c, orders[1..], b);
      WeightedAdd(c, |orders[0].items|, OrderItems(orders[1..]), b);
    }
  }

  /** Per-conversion view of a bucket total: each conversion's commission
      weighted by how many items it has. */
  function WeightedCommission(cs: seq<Conversion>, b: Bucket): real {
    if |cs| == 0 then 0.0
    else
      Weighted(cs[0], OrderItems(cs[0].orders), b) + WeightedCommission(cs[1..], b)
  }

  /** Because the commission is copied onto every item row, a conversion with
      k items counts k times in the completed and pending totals, and an
      itemless one not at all. */
  lemma {:induction false} TotalsCountPerItem(cs: seq<Conversion>, b: Bucket)
    ensures CommissionIn(Flatten(cs), b) == WeightedCommission(cs, b)
    decreases |cs|
  {
    if |cs| > 0 {
      CommissionInAppend(OrdersOf(cs[0], cs[0].orders), Flatten(cs[1..]), b);
      CommissionInOrders(cs[0], cs[0].orders, b);
      TotalsCountPerItem(cs[1..], b);
    }
  }

  /** Commission of the rows whose status matches exactly `k` of the two filters. */
  function CommissionMatching(rows: seq<Row>, k: nat): real {
    if |rows| == 0 then 0.0
    else
      var last := rows[|rows| - 1];
      var hits := (if IsCompleted(last.status) then 1 else 0) + (if IsPending(last.status) then 1 else 0);
      CommissionMatching(rows[..|rows| - 1], k) + (if hits == k then last.commission else 0.0)
  }

  /** The gross estimate sums the commission of every row that passes a
      filter, and counts twice a row whose status passes both. */
  lemma {:induction false} EstimatedTotalByMatches(rows: seq<Row>)
    ensures EstimatedTotal(rows) == CommissionMatching(rows, 1) + 2.0 * CommissionMatching(rows, 2)
    decreases |rows|
  {
    if |rows| > 0 {
      EstimatedTotalByMatches(rows[..|rows| - 1]);
    }
  }

  /** A pattern whose first letter does not occur in `s` (ignoring case) does not occur. */
  lemma {:induction false} NoFirstLetter(s: string, pattern: string, from: nat)
    requires |pattern| > 0
    requires forall i :: from <= i < |s| ==> UpperAscii(s[i]) != pattern[0]
    ensures FindIgnoringCase(s, pattern, from).None?
    decreases |s| - from
  {
    if from + |pattern| <= |s| {
      assert !MatchesAt(s, pattern, from) by {
        assert UpperAscii(s[from + 0]) != pattern[0];
      }
      NoFirstLetter(s, pattern, from + 1);
    }
  }

  /** One differing letter rules out a match at `i`. */
  lemma Mismatch(s: string, pattern: string, i: nat, k: nat)
    requires k < |pattern| && i + k < |s|
    requires UpperAscii(s[i + k]) != pattern[k]
    ensures !MatchesAt(s, pattern, i)
  {
  }

  /** The statuses of the API's vocabulary and how the two filters read them:
      COMPLETED and SETTLED count as completed, PENDING as pending, CANCELLED
      and INVALID as neither, in any letter case; a missing status as neither. */
  lemma CompletedStatus()
    ensures IsCompleted(JStr("COMPLETED")) && !IsPending(JStr("COMPLETED"))
  {
    var completed := "COMPLETED";
    assert MatchesAt(completed, "COMPLETE", 0);
    Mismatch(completed, "PENDING", 0, 0);
    Mismatch(completed, "PENDING", 1, 0);
    Mismatch(completed, "PENDING", 2, 0);
    assert FindIgnoringCase(completed, "PENDING", 3).None?;
    assert FindIgnoringCase(completed, "PENDING", 1) == FindIgnoringCase(completed, "PENDING", 2);
    assert FindIgnoringCase(completed, "PENDING", 0).None?;
  }

  lemma SettledStatus()
    ensures IsCompleted(JStr("settled")) && !IsPending(JStr("settled"))
  {
    assert MatchesAt("settled", "SETTLED", 0);
    NoFirstLetter("settled", "PENDING", 0);
  }

  lemma PendingStatus()
    ensures IsPending(JStr("PENDING")) && !IsCompleted(JStr("PENDING"))
    ensures IsPending(JStr("pending"))
  {
    assert MatchesAt("PENDING", "PENDING", 0);
    assert MatchesAt("pending", "PENDING", 0);
    NoFirstLetter("PENDING", "COMPLETE", 0);
    NoFirstLetter("PENDING", "SETTLED", 0);
  }

  lemma CancelledStatus()
    ensures !IsCompleted(JStr("CANCELLED")) && !IsPending(JStr("CANCELLED"))
  {
    var cancelled := "CANCELLED";
    NoFirstLetter(cancelled, "PENDING", 0);
    NoFirstLetter(cancelled, "SETTLED", 0);
    CancelledIsNotComplete();
  }

  lemma CancelledIsNotComplete()
    ensures FindIgnoringCase("CANCELLED", "COMPLETE", 0).None?
  {
    var cancelled := "CANCELLED";
    Mismatch(cancelled, "COMPLETE", 0, 1);
    Mismatch(cancelled, "COMPLETE", 1, 0);
    assert FindIgnoringCase(cancelled, "COMPLETE", 2).None?;
    assert FindIgnoringCase(cancelled, "COMPLETE", 1).None?;
  }

  lemma InvalidStatus()
    ensures !IsCompleted(JStr("INVALID")) && !IsPending(JStr("INVALID"))
    ensures !IsCompleted(JNull) && !IsPending(JNull)
  {
    NoFirstLetter("INVALID", "COMPLETE", 0);
    NoFirstLetter("INVALID", "SETTLED", 0);
    NoFirstLetter("INVALID", "PENDING", 0);
  }
}

=== FILE: body.dfy ===
/** The request body `json.dumps({"query": q}, separators=(',', ':'))`:
    compact separators and Python's default ASCII-only string escaping, and a
    JSON string decoder as its inverse. */
module Body {
  import opened Wrappers
  import opened Text

  /** Lowercase hexadecimal digit, as Python's `'{0:04x}'` writes it. */
  function HexDigit(d: nat): (c: char)
    requires d < 16
  {
    if d < 10 then ('0' as int + d) as char else ('a' as int + d - 10) as char
  }

  /** Value of a hexadecimal digit of either case. */
  function HexValue(c: char): Option<nat> {
    if '0' <= c <= '9' then Some(c as int - '0' as int)
    else if 'a' <= c <= 'f' then Some(c as int - 'a' as int + 10)
    else if 'A' <= c <= 'F' then Some(c as int - 'A' as int + 10)
    else None
  }

  lemma HexValueOfHexDigit(d: nat)
    requires d < 16
    ensures HexValue(HexDigit(d)) == Some(d)
  {
  }

  /** Four lowercase hex digits of a 16-bit code unit. */
  function Hex4(n: nat): (r: string)
    requires n < 0x10000
    ensures |r| == 4
  {
    var m0 := n % 0x1000;
    var m1 := m0 % 0x100;
    [HexDigit(n / 0x1000), HexDigit(m0 / 0x100), HexDigit(m1 / 0x10), HexDigit(m1 % 0x10)]
  }

  /** The 16-bit code unit four hex digits denote. */
  function ParseHex4(s: string): (r: Option<nat>)
    requires |s| == 4
    ensures r.Some? ==> r.value < 0x10000
  {
    match (HexValue(s[0]), HexValue(s[1]), HexValue(s[2]), HexValue(s[3]))
    case (Some(a), Some(b), Some(c), Some(d)) =>
      if a < 16 && b < 16 && c < 16 && d < 16 then Some(a * 0x1000 + b * 0x100 + c * 0x10 + d) else None
    case _ => None
  }

  lemma ParseHex4OfHex4(n: nat)
    requires n < 0x10000
    ensures ParseHex4(Hex4(n)) == Some(n)
  {
    var m0 := n % 0x1000;
    var m1 := m0 % 0x100;
    HexValueOfHexDigit(n / 0x1000);
    HexValueOfHexDigit(m0 / 0x100);
    HexValueOfHexDigit(m1 / 0x10);
    HexValueOfHexDigit(m1 % 0x10);
    assert n == n / 0x1000 * 0x1000 + m0;
    assert m0 == m0 / 0x100 * 0x100 + m1;
    assert m1 == m1 / 0x10 * 0x10 + m1 % 0x10;
  }

  predicate IsHighSurrogate(u: int) { 0xD800 <= u < 0xDC00 }
  predicate IsLowSurrogate(u: int) { 0xDC00 <= u < 0xE000 }

  /** The printable ASCII range `' '..'~'` that Python writes unescaped. */
  predicate IsPrintableAscii(c: char) { ' ' <= c <= '~' }

  /** One character as Python's ASCII-only JSON encoder writes it inside a
      string: short escapes for quote, backslash and five control characters,
      printable ASCII as is, everything else as `\uXXXX`, with characters
      beyond the Basic Multilingual Plane written as a surrogate pair. */
  function EscapeChar(c: char): (r: string)
    ensures 1 <= |r| <= 12
    ensures forall i :: 0 <= i < |r| ==> IsPrintableAscii(r[i])
  {
    var n := c as int;
    if c == '"' then "\\\""
    else if c == '\\' then "\\\\"
    else if n == 0x0A then "\\n"
    else if n == 0x0D then "\\r"
    else if n == 0x09 then "\\t"
    else if n == 0x08 then "\\b"
    else if n == 0x0C then "\\f"
    else if IsPrintableAscii(c) then [c]
    else if n < 0x10000 then "\\u" + Hex4(n)
    else
      var v := n - 0x10000;
      "\\u" + Hex4(0xD800 + v / 0x400) + "\\u" + Hex4(0xDC00 + v % 0x400)
  }

  /** A whole string's escaped form (without the surrounding quotes). */
  function Escape(s: string): (r: string)
    ensures forall i :: 0 <= i < |r| ==> IsPrintableAscii(r[i])
    ensures |s| <= |r| <= 12 * |s|
  {
    if |s| == 0 then "" else EscapeChar(s[0]) + Escape(s[1..])
  }

  /** Decodes one escape or literal character at the front of `t`, reporting
      how many characters it used; a lone surrogate is refused because it is
      not a character. */
  function DecodeOne(t: string): (r: Option<(char, nat)>)
    requires |t| > 0
    ensures r.Some? ==> 1 <= r.value.1 <= |t|
  {
    if t[0] == '\\' then
      if |t| < 2 then None
      else if t[1] == '"' then Some(('"', 2))
      else if t[1] == '\\' then Some(('\\', 2))
      else if t[1] == '/' then Some(('/', 2))
      else if t[1] == 'n' then Some((0x0A as char, 2))
      else if t[1] == 'r' then Some((0x0D as char, 2))
      else if t[1] == 't' then Some((0x09 as char, 2))
      else if t[1] == 'b' then Some((0x08 as char, 2))
      else if t[1] == 'f' then Some((0x0C as char, 2))
      else if t[1] == 'u' && |t| >= 6 then
        match ParseHex4(t[2..6])
        case None => None
        case Some(u) =>
          if IsHighSurrogate(u) then
            if |t| >= 12 && t[6] == '\\' && t[7] == 'u' then
              match ParseHex4(t[8..12])
              case Some(lo) =>
                if IsLowSurrogate(lo) then Some(((0x10000 + (u - 0xD800) * 0x400 + (lo - 0xDC00)) as char, 12))
                else None
              case None => None
            else None
          else if IsLowSurrogate(u) then None
          else Some((u as char, 6))
      else None
    else if t[0] == '"' || (t[0] as int) < 0x20 then None
    else Some((t[0], 1))
  }

  /** Decodes the inside of a JSON string literal. */
  function Unescape(t: string): (r: Option<string>)
    decreases |t|
  {
    if |t| == 0 then Some("")
    else
      match DecodeOne(t)
      case None => None
      case Some((c, k)) =>
        match Unescape(t[k..])
        case None => None
        case Some(x) => Some([c] + x)
  }

  /** The decoder reads one escaped character back, whatever follows it. */
  lemma DecodeOneOfEscapeChar(c: char, rest: string)
    ensures DecodeOne(EscapeChar(c) + rest) == Some((c, |EscapeChar(c)|))
  {
    var n := c as int;
    var t := EscapeChar(c) + rest;
    if c == '"' || c == '\\' || n == 0x0A || n == 0x0D || n == 0x09 || n == 0x08 || n == 0x0C {
    } else if IsPrintableAscii(c) {
    } else if n < 0x10000 {
      assert t[2..6] == Hex4(n);
      ParseHex4OfHex4(n);
    } else {
      var v := n - 0x10000;
      var hi := 0xD800 + v / 0x400;
      var lo := 0xDC00 + v % 0x400;
      assert t[2..6] == Hex4(hi);
      assert t[8..12] == Hex4(lo);
      ParseHex4OfHex4(hi);
      ParseHex4OfHex4(lo);
      assert 0x10000 + (hi - 0xD800) * 0x400 + (lo - 0xDC00) == n;
    }
  }

  /** Decoding the escaped form gives back the original string. */
  lemma {:induction false} UnescapeEscape(s: string)
    ensures Unescape(Escape(s)) == Some(s)
    decreases |s|
  {
    if |s| > 0 {
      var e := EscapeChar(s[0]);
      var t := Escape(s);
      assert t == e + Escape(s[1..]);
      DecodeOneOfEscapeChar(s[0], Escape(s[1..]));
      assert t[|e|..] == Escape(s[1..]);
      UnescapeEscape(s[1..]);
      assert s == [s[0]] + s[1..];
    }
  }

  const BodyHead: string := "{\"query\":\""
  const BodyTail: string := "\"}"

  /** The compact body `{"query":"<escaped q>"}`: no space after ':' or ','. */
  function SerializeBody(q: string): (body: string)
    ensures forall i :: 0 <= i < |body| ==> IsPrintableAscii(body[i])
  {
    BodyHead + (Escape(q) + BodyTail)
  }

  /** Reads the query back out of a body of that shape. */
  function ParseBody(body: string): Option<string> {
    match StripPrefix(BodyHead, body)
    case None => None
    case Some(rest) =>
      if |rest| >= |BodyTail| && rest[|rest| - |BodyTail|..] == BodyTail then
        Unescape(rest[..|rest| - |BodyTail|])
      else None
  }

  /** Serializing a query and parsing the body reproduces the query exactly. */
  lemma ParseSerializeBody(q: string)
    ensures ParseBody(SerializeBody(q)) == Some(q)
  {
    StripPrefixOfConcat(BodyHead, Escape(q) + BodyTail);
    var rest := Escape(q) + BodyTail;
    assert rest[..|rest| - |BodyTail|] == Escape(q);
    UnescapeEscape(q);
  }

  /** Different queries give different bodies, so a body names one query. */
  lemma SerializeBodyInjective(q: string, q': string)
    requires SerializeBody(q) == SerializeBody(q')
    ensures q == q'
  {
    ParseSerializeBody(q);
    ParseSerializeBody(q');
  }
}

=== FILE: dashboard.dfy ===
/** What the page shows for a reply of `buscar_dados_shopee`: the error
    banner when the error side is truthy, the "no data" notice when the nodes
    are falsy, otherwise the flattened table and the panel computed from it
    (three totals, commission per status, top ten items). An exception raised
    on the way is not caught and ends the page run. */
module Dashboard {
  import opened Wrappers
  import opened Json
  import opened Envelope
  import opened Normalize
  import opened Grouping
  import opened Aggregate
  import opened Tables

  datatype Summary = Summary(
    completed: real,
    pending: real,
    estimated: real,
    net: real,
    byStatus: seq<(Json, real)>,
    top: seq<(Json, real)>)

  /** What the page ends up showing. */
  datatype Screen =
    | ErrorBanner(message: Message)
    | NoData
    | Panel(summary: Summary)
    | Crash(e: PyError)

  /** Truthiness of the error side: the API's message as a Python value, or
      `str(e)` of a caught exception, which is never empty for the reading
      errors and is the transport's own text otherwise. */
  function ErrorShown(m: Message): (shown: bool)
    ensures shown ==> m != ApiMessage(JNull)
    ensures m.Raised? ==> shown
    ensures m.ApiMessage? && m.message.JStr? ==> (shown <==> |m.message.s| > 0)
    ensures m.ApiMessage? && m.message.JArr? ==> (shown <==> |m.message.elems| > 0)
    ensures m.TransportFailure? ==> (shown <==> |m.text| > 0)
  {
    match m
    case ApiMessage(v) => Truthy(v)
    case Raised(_) => true
    case TransportFailure(text) => |text| > 0
  }

  /** The panel computed from a table of rows, in the page's order: the two
      totals and the estimate, which cannot raise, then the status chart and
      the top-ten table, each of which raises TypeError on a column it
      cannot group or rank. */
  function Summarize(rows: seq<Row>): (r: Result<Summary, PyError>)
    ensures r.Success? <==> (forall i :: 0 <= i < |rows| ==> Hashable(rows[i].status)) && Top10(rows).Success?
    ensures r.Failure? ==> r.error == TypeError
    ensures r.Success? ==>
      && r.value.completed == CompletedTotal(rows)
      && r.value.pending == PendingTotal(rows)
      && r.value.estimated == r.value.completed + r.value.pending == EstimatedTotal(rows)
      && r.value.net == NetEstimate(r.value.estimated)
      && GroupByStatus(rows) == Success(r.value.byStatus)
      && Top10(rows) == Success(r.value.top)
    ensures r.Success? ==> r.value.estimated >= 0.0 ==> 0.0 <= r.value.net <= r.value.estimated
    ensures r.Success? ==> |r.value.top| <= 10 && DistinctKeys(r.value.byStatus) && DistinctKeys(r.value.top)
  {
    var completed := CompletedTotal(rows);
    var pending := PendingTotal(rows);
    var byStatus :- GroupByStatus(rows);
    var top :- Top10(rows);
    Success(Summary(completed, pending, completed + pending, NetEstimate(completed + pending), byStatus, top))
  }

  /** The rows the status chart groups carry, per bucket, the commission the
      bucket's total counts: rows without a status match no filter. */
  lemma {:induction false} StatusEntriesInBucket(rows: seq<Row>, b: Bucket)
    ensures SumWhere(StatusEntries(rows), BucketFilter(b)) == CommissionIn(rows, b)
    decreases |rows|
  {
    if |rows| > 0 {
      var prev := rows[..|rows| - 1];
      StatusEntriesInBucket(prev, b);
      var e := StatusEntries(rows);
      if rows[|rows| - 1].status == JNull {
        assert e == StatusEntries(prev);
      } else {
        assert e[..|e| - 1] == StatusEntries(prev);
      }
    }
  }

  /** The metrics agree with the status chart: the completed total is the sum
      of the bars whose status passes the completed filter, and likewise for
      pending. */
  lemma TotalsMatchStatusChart(rows: seq<Row>)
    ensures GroupByStatus(rows).Success? ==>
      && CompletedTotal(rows) == SumWhere(GroupByStatus(rows).value, BucketFilter(Completed))
      && PendingTotal(rows) == SumWhere(GroupByStatus(rows).value, BucketFilter(Pending))
  {
    if GroupByStatus(rows).Success? {
      GroupSumKeepsSumWhere(StatusEntries(rows), BucketFilter(Completed));
      GroupSumKeepsSumWhere(StatusEntries(rows), BucketFilter(Pending));
      StatusEntriesInBucket(rows, Completed);
      StatusEntriesInBucket(rows, Pending);
    }
  }

  /** The panel as the page computes it: the status column is read first, and
      a DataFrame built from no rows has no columns, so an empty table raises
      KeyError. */
  function SummarizeAsWritten(rows: seq<Row>): (r: Result<Summary, PyError>)
    ensures |rows| == 0 ==> r == Failure(KeyError(JStr("Status do Pedido")))
    ensures |rows| > 0 ==> r == Summarize(rows)
  {
    if |rows| == 0 then Failure(KeyError(JStr("Status do Pedido"))) else Summarize(rows)
  }

  /** The page as written: the banner and the notice as in `Page`, but a
      truthy node list that yields no rows raises KeyError. */
  function PageAsWritten(reply: Reply): (s: Screen)
    ensures s.ErrorBanner? <==> reply.error.Some? && ErrorShown(reply.error.value)
    ensures s == NoData <==> !(reply.error.Some? && ErrorShown(reply.error.value)) && !Truthy(reply.nodes)
    ensures s.Panel? <==>
      && !(reply.error.Some? && ErrorShown(reply.error.value)) && Truthy(reply.nodes)
      && BuildRows(reply.nodes).Success? && SummarizeAsWritten(BuildRows(reply.nodes).value).Success?
    ensures s.Panel? ==>
      && BuildRows(reply.nodes).Success? && |BuildRows(reply.nodes).value| > 0
      && Summarize(BuildRows(reply.nodes).value) == Success(s.summary)
    ensures s.Crash? <==>
      && !(reply.error.Some? && ErrorShown(reply.error.value)) && Truthy(reply.nodes)
      && (BuildRows(reply.nodes).Failure? || SummarizeAsWritten(BuildRows(reply.nodes).value).Failure?)
    ensures s.Crash? ==>
      || BuildRows(reply.nodes) == Failure(s.e)
      || (BuildRows(reply.nodes).Success? && SummarizeAsWritten(BuildRows(reply.nodes).value) == Failure(s.e))
    ensures s.Crash? ==>
      || BuildRows(reply.nodes).Failure?
      || s.e == TypeError
      || (s.e == KeyError(JStr("Status do Pedido")) && BuildRows(reply.nodes) == Success([]))
  {
    if reply.error.Some? && ErrorShown(reply.error.value) then ErrorBanner(reply.error.value)
    else if !Truthy(reply.nodes) then NoData
    else
      match BuildRows(reply.nodes)
      case Failure(e) => Crash(e)
      case Success(rows) =>
        match SummarizeAsWritten(rows)
        case Failure(e) => Crash(e)
        case Success(s) => Panel(s)
  }

  /** The corrected page: an empty table goes to the "no data" notice. */
  function Page(reply: Reply): (s: Screen)
    ensures s.ErrorBanner? <==> reply.error.Some? && ErrorShown(reply.error.value)
    ensures s == NoData <==>
      && !(reply.error.Some? && ErrorShown(reply.error.value))
      && (!Truthy(reply.nodes) || BuildRows(reply.nodes) == Success([]))
    ensures s.Panel? <==>
      && !(reply.error.Some? && ErrorShown(reply.error.value)) && Truthy(reply.nodes)
      && BuildRows(reply.nodes).Success? && |BuildRows(reply.nodes).value| > 0
      && Summarize(BuildRows(reply.nodes).value).Success?
    ensures s.Panel? ==> Summarize(BuildRows(reply.nodes).value) == Success(s.summary)
    ensures s.Crash? <==>
      && !(reply.error.Some? && ErrorShown(reply.error.value)) && Truthy(reply.nodes)
      && (|| BuildRows(reply.nodes).Failure?
          || (|BuildRows(reply.nodes).value| > 0 && Summarize(BuildRows(reply.nodes).value).Failure?))
    ensures s.Crash? ==>
      || BuildRows(reply.nodes) == Failure(s.e)
      || (BuildRows(reply.nodes).Success? && Summarize(BuildRows(reply.nodes).value) == Failure(s.e))
    ensures s.Crash? ==> s.e == TypeError || BuildRows(reply.nodes).Failure?
  {
    if reply.error.Some? && ErrorShown(reply.error.value) then ErrorBanner(reply.error.value)
    else if !Truthy(reply.nodes) then NoData
    else
      match BuildRows(reply.nodes)
      case Failure(e) => Crash(e)
      case Success(rows) =>
        if |rows| == 0 then NoData
        else
          match Summarize(rows)
          case Failure(e) => Crash(e)
          case Success(s) => Panel(s)
  }

  /** The two pages differ only where the nodes are truthy but yield no rows:
      there the page as written raises KeyError. */
  lemma PagesDifferOnlyOnEmptyTable(reply: Reply)
    ensures PageAsWritten(reply) != Page(reply) <==>
      && !(reply.error.Some? && ErrorShown(reply.error.value))
      && Truthy(reply.nodes)
      && BuildRows(reply.nodes) == Success([])
    ensures PageAsWritten(reply) != Page(reply) ==>
      PageAsWritten(reply) == Crash(KeyError(JStr("Status do Pedido"))) && Page(reply) == NoData
  {
  }

  /** A concrete reply that shows it: one conversion whose `orders` list is empty. */
  lemma ItemlessReplyCrashes()
    ensures var reply := Reply(JArr([JObj([("orders", JArr([]))])]), None);
      && PageAsWritten(reply) == Crash(KeyError(JStr("Status do Pedido")))
      && Page(reply) == NoData
  {
    NodeWithoutOrders([("orders", JArr([]))]);
  }

  /** Summing a conversion's commission once per item over a table without
      items gives zero, and groups nothing. */
  lemma SummarizeEmpty()
    ensures Summarize([]) == Success(Summary(0.0, 0.0, 0.0, 0.0, [], []))
  {
    var g := GroupByStatus([]);
    assert g.Success?;
    assert |g.value| == 0 by {
      if |g.value| > 0 {
        assert false;
      }
    }
    var top := Top10([]);
    assert top.Success?;
    assert |top.value| == 0 by {
      if |top.value| > 0 {
        assert false;
      }
    }
  }

  /** The shape of a row flattened from a schema reply: string status and
      name, integer quantity. */
  predicate SchemaShaped(r: Row) {
    r.status.JStr? && r.itemName.JStr? && r.qty.JInt?
  }

  lemma {:induction false} QtyOfSchema(cs: seq<Conversion>)
    ensures forall i :: 0 <= i < |Flatten(cs)| ==> SchemaShaped(Flatten(cs)[i])
    decreases |cs|
  {
    if |cs| > 0 {
      QtyOfSchema(cs[1..]);
      QtyOfOrders(cs[0], cs[0].orders);
      var a: seq<Row> := OrdersOf(cs[0], cs[0].orders);
      var b: seq<Row> := Flatten(cs[1..]);
      assert Flatten(cs) == a + b;
      forall i | 0 <= i < |a + b|
        ensures SchemaShaped((a + b)[i])
      {
        if i >= |a| {
          assert (a + b)[i] == b[i - |a|];
        }
      }
    }
  }

  lemma {:induction false} QtyOfOrders(c: Conversion, orders: seq<Order>)
    ensures forall i :: 0 <= i < |OrdersOf(c, orders)| ==> SchemaShaped(OrdersOf(c, orders)[i])
    decreases |orders|
  {
    if |orders| > 0 {
      QtyOfOrders(c, orders[1..]);
      var a: seq<Row> := ItemsOf(c, orders[0].items);
      var b: seq<Row> := OrdersOf(c, orders[1..]);
      forall i | 0 <= i < |a + b|
        ensures SchemaShaped((a + b)[i])
      {
        if i >= |a| {
          assert (a + b)[i] == b[i - |a|];
        }
      }
    }
  }

  /** A non-empty table of schema-shaped rows can be grouped and ranked. */
  lemma ShapedRowsSummarize(rows: seq<Row>)
    requires |rows| > 0 && forall i :: 0 <= i < |rows| ==> SchemaShaped(rows[i])
    ensures Summarize(rows).Success?
  {
    assert rows[0].qty != JNull;
    assert NumericColumn(rows);
  }

  /** End to end for a well-formed reply: the page never crashes; it shows the
      "no data" notice exactly when no conversion has an item, and otherwise a
      panel whose completed and pending totals weight each conversion's
      commission by its number of items. */
  lemma PageOfSchema(cs: seq<Conversion>)
    ensures var s := Page(Reply(JArr(ConversionsJson(cs)), None));
      && !s.Crash?
      && (s == NoData <==> TotalItems(cs) == 0)
      && (s.Panel? ==>
            && s.summary.completed == WeightedCommission(cs, Completed)
            && s.summary.pending == WeightedCommission(cs, Pending)
            && s.summary.estimated == WeightedCommission(cs, Completed) + WeightedCommission(cs, Pending))
  {
    var nodes := JArr(ConversionsJson(cs));
    BuildRowsOfSchema(cs);
    FlattenLength(cs);
    QtyOfSchema(cs);
    if |Flatten(cs)| > 0 {
      ShapedRowsSummarize(Flatten(cs));
    }
    TotalsCountPerItem(cs, Completed);
    TotalsCountPerItem(cs, Pending);
    if |cs| == 0 {
      assert TotalItems(cs) == 0;
    }
  }

  /** The same replies on the page as written: it crashes with KeyError
      exactly when there are conversions but none of them has an item, and
      otherwise it shows what the corrected page shows. */
  lemma PageAsWrittenOfSchema(cs: seq<Conversion>)
    ensures var reply := Reply(JArr(ConversionsJson(cs)), None);
      && (PageAsWritten(reply).Crash? <==> |cs| > 0 && TotalItems(cs) == 0)
      && (|cs| > 0 && TotalItems(cs) == 0 ==> PageAsWritten(reply) == Crash(KeyError(JStr("Status do Pedido"))))
      && (|cs| == 0 || TotalItems(cs) > 0 ==> PageAsWritten(reply) == Page(reply))
  {
    var reply := Reply(JArr(ConversionsJson(cs)), None);
    PageOfSchema(cs);
    PagesDifferOnlyOnEmptyTable(reply);
    BuildRowsOfSchema(cs);
    FlattenLength(cs);
  }

  /** One completed conversion worth 10.00 and one pending worth 3.00, one
      item each: the panel reads 10.00 completed, 13.00 estimated and 11.57 net. */
  lemma TwoConversionExample()
    ensures var cs := [Conversion(1700000000, 1700100000, "COMPLETED", 10.0, [Order([Item("Caneca", 25.0, 1)])]),
                       Conversion(1700000500, 0, "PENDING", 3.0, [Order([Item("Livro", 40.0, 2)])])];
      var s := Page(Reply(JArr(ConversionsJson(cs)), None));
      s.Panel? && s.summary.completed == 10.0 && s.summary.estimated == 13.0 && s.summary.net == 11.57
  {
    var cs := [Conversion(1700000000, 1700100000, "COMPLETED", 10.0, [Order([Item("Caneca", 25.0, 1)])]),
               Conversion(1700000500, 0, "PENDING", 3.0, [Order([Item("Livro", 40.0, 2)])])];
    PageOfSchema(cs);
    CompletedStatus();
    PendingStatus();
  }
}

=== FILE: decimal.dfy ===
/** Decimal text and numbers: `str(n)` of a Python int, the inverse parser,
    `int(x)` of a float (truncation toward zero) and `float(x)` of the JSON
    values the API sends for money fields. */
module Decimal {
  import opened Wrappers
  import opened Json
  import opened Text

  predicate IsDigit(c: char) {
    '0' <= c <= '9'
  }

  predicate AllDigits(s: string) {
    forall i :: 0 <= i < |s| ==> IsDigit(s[i])
  }

  function DigitChar(d: nat): (c: char)
    requires d < 10
    ensures IsDigit(c) && c as int - '0' as int == d
  {
    ('0' as int + d) as char
  }

  /** The number a string of decimal digits denotes, most significant first. */
  function DigitsValue(s: string): nat
    requires AllDigits(s)
  {
    if |s| == 0 then 0 else DigitsValue(s[..|s| - 1]) * 10 + (s[|s| - 1] as int - '0' as int)
  }

  function Pow10(k: nat): (r: nat)
    ensures r >= 1
  {
    if k == 0 then 1 else 10 * Pow10(k - 1)
  }

  /** Python's `str(n)` for a non-negative int: digits without leading zeros. */
  function NatToString(n: nat): (r: string)
    ensures |r| >= 1 && AllDigits(r)
    ensures |r| > 1 ==> r[0] != '0'
    ensures n < Pow10(|r|) && (|r| > 1 ==> Pow10(|r| - 1) <= n)
  {
    if n < 10 then [DigitChar(n)] else NatToString(n / 10) + [DigitChar(n % 10)]
  }

  lemma {:induction false} NatToStringValue(n: nat)
    ensures DigitsValue(NatToString(n)) == n
    decreases n
  {
    if n >= 10 {
      var s := NatToString(n);
      assert s[..|s| - 1] == NatToString(n / 10);
      NatToStringValue(n / 10);
    }
  }

  /** Python's `str(i)` for any int: a minus sign before the digits of a negative value. */
  function IntToString(i: int): (r: string)
    ensures |r| >= 1
    ensures (r[0] == '-') <==> i < 0
    ensures i >= 0 ==> AllDigits(r)
    ensures i < 0 ==> AllDigits(r[1..]) && |r| >= 2
  {
    if i < 0 then "-" + NatToString(-i) else NatToString(i)
  }

  /** Reads an optional minus sign followed by one or more decimal digits. */
  function ParseInt(s: string): (r: Option<int>)
    ensures r.Some? <==>
      (|s| >= 1 && AllDigits(s)) || (|s| >= 2 && s[0] == '-' && AllDigits(s[1..]))
  {
    if |s| >= 1 && AllDigits(s) then Some(DigitsValue(s))
    else if |s| >= 2 && s[0] == '-' && AllDigits(s[1..]) then Some(0 - DigitsValue(s[1..]))
    else None
  }

  /** Reading back the decimal rendering of an int gives the int. */
  lemma {:induction false} ParseIntOfIntToString(i: int)
    ensures ParseInt(IntToString(i)) == Some(i)
  {
    if i < 0 {
      ParseIntOfNegative(NatToString(-i), -i);
    } else {
      NatToStringValue(i);
      assert ParseInt(NatToString(i)) == Some(DigitsValue(NatToString(i)));
    }
  }

  /** A minus sign before the rendering of a positive n reads back as -n. */
  lemma ParseIntOfNegative(t: string, n: nat)
    requires t == NatToString(n) && n > 0
    ensures ParseInt("-" + t) == Some(0 - n)
  {
    var s := "-" + t;
    assert s[1..] == t;
    assert !AllDigits(s) by { assert !IsDigit(s[0]); }
    NatToStringValue(n);
    assert ParseInt(s) == Some(0 - DigitsValue(t));
  }

  /** Distinct ints have distinct renderings. */
  lemma IntToStringInjective(a: int, b: int)
    requires IntToString(a) == IntToString(b)
    ensures a == b
  {
    ParseIntOfIntToString(a);
    ParseIntOfIntToString(b);
  }

  /** Python's `int(x)` of a float: truncation toward zero. */
  function Truncate(x: real): (t: int)
    ensures x >= 0.0 ==> t as real <= x < t as real + 1.0
    ensures x < 0.0 ==> t as real - 1.0 < x <= t as real
  {
    if x >= 0.0 then x.Floor else -((-x).Floor)
  }

  lemma NoDotInDigits(s: string)
    requires AllDigits(s)
    ensures IndexOf(s, '.') == |s|
  {
  }

  /** Digits with an optional fractional part (`12`, `12.5`, `12.`, `.5`). */
  function ParseUnsignedDecimal(b: string): (r: Option<real>)
    ensures r.Some? ==> r.value >= 0.0
  {
    var k := IndexOf(b, '.');
    if k == |b| then
      if |b| >= 1 && AllDigits(b) then Some(DigitsValue(b) as real) else None
    else
      var whole := b[..k];
      var frac := b[k + 1..];
      if AllDigits(whole) && AllDigits(frac) && |whole| + |frac| >= 1 then
        Some(DigitsValue(whole) as real + DigitsValue(frac) as real / Pow10(|frac|) as real)
      else None
  }

  /** Python's `float(s)` for a decimal string with an optional sign. */
  function ParseDecimal(s: string): (r: Option<real>)
    ensures |s| >= 1 && s[0] == '-' && r.Some? ==> r.value <= 0.0
    ensures |s| >= 1 && IsDigit(s[0]) && r.Some? ==> r.value >= 0.0
  {
    if |s| >= 1 && s[0] == '-' then
      match ParseUnsignedDecimal(s[1..])
      case Some(v) => Some(-v)
      case None => None
    else if |s| >= 1 && s[0] == '+' then ParseUnsignedDecimal(s[1..])
    else ParseUnsignedDecimal(s)
  }

  /** An integer's text has no comma, so it ends at the next separator. */
  lemma IntTextHasNoComma(i: int)
    ensures ',' !in IntToString(i)
  {
    var s := IntToString(i);
    forall k | 0 <= k < |s|
      ensures s[k] != ','
    {
      if i >= 0 {
        assert IsDigit(s[k]);
      } else if k > 0 {
        assert s[k] == s[1..][k - 1];
        assert IsDigit(s[1..][k - 1]);
      }
    }
  }

  lemma NatTextAsDecimal(n: nat)
    ensures ParseUnsignedDecimal(NatToString(n)) == Some(n as real)
  {
    NoDotInDigits(NatToString(n));
    NatToStringValue(n);
  }

  /** `float` reads back the rendering of every int exactly. */
  lemma ParseDecimalOfIntToString(i: int)
    ensures ParseDecimal(IntToString(i)) == Some(i as real)
  {
    var s := IntToString(i);
    if i < 0 {
      assert s[1..] == NatToString(-i);
      NatTextAsDecimal(-i);
    } else {
      assert s == NatToString(i);
      NatTextAsDecimal(i);
    }
  }

  /** Python's `float(v)` applied to a JSON value: numbers and booleans convert,
      decimal strings are parsed, anything else raises. */
  function ToFloat(v: Json): (r: Result<real, PyError>)
    ensures v.JInt? ==> r == Success(v.i as real)
    ensures v.JFloat? ==> r == Success(v.f)
    ensures v.JBool? ==> r == Success(if v.b then 1.0 else 0.0)
    ensures v.JStr? ==> (r.Success? <==> ParseDecimal(v.s).Some?)
    ensures v.JStr? && r.Success? ==> ParseDecimal(v.s) == Some(r.value)
    ensures v.JStr? && r.Failure? ==> r.error == ValueError
    ensures (v.JNull? || v.JArr? || v.JObj?) ==> r == Failure(TypeError)
  {
    match v
    case JInt(i) => Success(i as real)
    case JFloat(f) => Success(f)
    case JBool(b) => Success(if b then 1.0 else 0.0)
    case JStr(s) =>
      (match ParseDecimal(s)
       case Some(x) => Success(x)
       case None => Failure(ValueError))
    case _ => Failure(TypeError)
  }

  /** `float("12.34")` is 12.34 and `float("5")` is 5. */
  lemma DecimalTexts()
    ensures ParseDecimal("12.34") == Some(12.34) && ParseDecimal("5") == Some(5.0)
  {
    var t := "12.34";
    assert IndexOf(t, '.') == 2;
    assert t[..2] == "12" && t[3..] == "34";
    assert DigitsValue("12") == 12 && DigitsValue("34") == 34 by {
      assert "12"[..1] == "1" && "34"[..1] == "3";
      assert DigitsValue("1") == 1 && DigitsValue("3") == 3;
    }
    assert Pow10(2) == 100;
    assert ParseUnsignedDecimal(t) == Some(12.34);
    assert IndexOf("5", '.') == 1;
    assert DigitsValue("5") == 5;
  }
}

=== FILE: envelope.dfy ===
/** Reading the parsed response in `buscar_dados_shopee`: an `errors` key turns
    the reply into (None, first message); otherwise the reply is (nodes, None)
    with `{}`/`[]` defaults along data -> conversionReport -> nodes. Any
    exception on the way, and any failure of the POST or of the JSON parse, is
    caught and returned as (None, str(e)). */
module Envelope {
  import opened Wrappers
  import opened Json

  /** What the error side of the pair holds. */
  datatype Message =
    | ApiMessage(message: Json)     // data['errors'][0]['message'], whatever JSON value it is
    | Raised(e: PyError)            // an exception raised while reading the envelope
    | TransportFailure(text: string) // the POST failed or the body was not JSON

  /** The pair `(nodes, error)`: `JNull` and `None` stand for Python's None. */
  datatype Reply = Reply(nodes: Json, error: Option<Message>)

  predicate HasNodes(r: Reply) {
    r.nodes != JNull
  }

  predicate HasError(r: Reply) {
    r.error.Some? && r.error.value != ApiMessage(JNull)
  }

  /** `data['errors'][0]['message']`: the message of the first entry of an
      `errors` list, or the exception the first failing subscript raises. */
  function FirstErrorMessage(data: Json): (r: Result<Json, PyError>)
    ensures !data.JObj? ==> r == Failure(TypeError)
    ensures data.JObj? && Lookup(data.fields, "errors").None? ==> r == Failure(KeyError(JStr("errors")))
    ensures data.JObj? && Lookup(data.fields, "errors") == Some(JArr([])) ==> r == Failure(IndexError)
    ensures data.JObj? && Lookup(data.fields, "errors").Some? && Lookup(data.fields, "errors").value.JObj? ==>
      r == Failure(KeyError(JInt(0)))
    ensures r.Success? ==>
      && data.JObj? && Lookup(data.fields, "errors").Some?
      && var errors := Lookup(data.fields, "errors").value;
      && errors.JArr? && |errors.elems| > 0 && errors.elems[0].JObj?
      && Lookup(errors.elems[0].fields, "message") == Some(r.value)
  {
    var errors :- Subscript(data, "errors");
    var first :- At(errors, 0);
    Subscript(first, "message")
  }

  /** `data.get('data', {}).get('conversionReport', {}).get('nodes', [])`: the
      `nodes` value when the whole path is present, `[]` when a key is
      missing, AttributeError when a step is present but not a dict. */
  function ReportNodes(data: Json): (r: Result<Json, PyError>)
    ensures r.Failure? ==> r.error == AttributeError
    ensures !data.JObj? ==> r == Failure(AttributeError)
    ensures data.JObj? && Lookup(data.fields, "data").None? ==> r == Success(JArr([]))
    ensures data.JObj? && Lookup(data.fields, "data") == Some(JNull) ==> r == Failure(AttributeError)
    ensures data.JObj? && Lookup(data.fields, "data").Some? && !Lookup(data.fields, "data").value.JObj? ==>
      r == Failure(AttributeError)
    ensures data.JObj? && Lookup(data.fields, "data").Some? && Lookup(data.fields, "data").value.JObj? ==>
      var d := Lookup(data.fields, "data").value;
      && (Lookup(d.fields, "conversionReport").None? ==> r == Success(JArr([])))
      && (Lookup(d.fields, "conversionReport").Some? && !Lookup(d.fields, "conversionReport").value.JObj? ==>
            r == Failure(AttributeError))
      && (Lookup(d.fields, "conversionReport").Some? && Lookup(d.fields, "conversionReport").value.JObj? ==>
            var report := Lookup(d.fields, "conversionReport").value;
            r == Success(if Lookup(report.fields, "nodes").Some? then Lookup(report.fields, "nodes").value else JArr([])))
    ensures r.Success? && r.value != JArr([]) ==>
      && data.JObj? && Lookup(data.fields, "data").Some?
      && var d := Lookup(data.fields, "data").value;
      && d.JObj? && Lookup(d.fields, "conversionReport").Some?
      && var report := Lookup(d.fields, "conversionReport").value;
      && report.JObj? && Lookup(report.fields, "nodes") == Some(r.value)
  {
    var d :- GetOr(data, "data", JObj([]));
    var report :- GetOr(d, "conversionReport", JObj([]));
    GetOr(report, "nodes", JArr([]))
  }

  /** The reply for an already-parsed response value. */
  function ReadEnvelope(data: Json): (r: Reply)
    ensures !(HasNodes(r) && HasError(r))
    ensures Contains(data, "errors") == Success(true) ==> r.nodes == JNull && r.error.Some?
    ensures Contains(data, "errors") == Success(false) ==>
      (r.error.None? <==> ReportNodes(data).Success?)
    ensures Contains(data, "errors").Failure? ==> r == Reply(JNull, Some(Raised(TypeError)))
  {
    match Contains(data, "errors")
    case Failure(e) => Reply(JNull, Some(Raised(e)))
    case Success(true) =>
      (match FirstErrorMessage(data)
       case Success(m) => Reply(JNull, Some(ApiMessage(m)))
       case Failure(e) => Reply(JNull, Some(Raised(e))))
    case Success(false) =>
      (match ReportNodes(data)
       case Success(nodes) => Reply(nodes, None)
       case Failure(e) => Reply(JNull, Some(Raised(e))))
  }

  /** The whole try-block after signing: POST, parse, read. */
  function HandleResponse(response: Result<Json, string>): (r: Reply)
    ensures response.Failure? ==> r == Reply(JNull, Some(TransportFailure(response.error)))
    ensures !(HasNodes(r) && HasError(r))
  {
    match response
    case Failure(text) => Reply(JNull, Some(TransportFailure(text)))
    case Success(data) => ReadEnvelope(data)
  }

  /** An error envelope yields no nodes and the first error's message. */
  lemma ErrorsEnvelope(fields: seq<(string, Json)>, errors: seq<Json>, first: seq<(string, Json)>, msg: Json)
    requires Lookup(fields, "errors") == Some(JArr(errors))
    requires |errors| > 0 && errors[0] == JObj(first)
    requires Lookup(first, "message") == Some(msg)
    ensures ReadEnvelope(JObj(fields)) == Reply(JNull, Some(ApiMessage(msg)))
  {
  }

  /** Without an `errors` key the error side is None, and the nodes default to
      `[]` when `data`, `conversionReport` or `nodes` is missing. */
  lemma DataEnvelope(fields: seq<(string, Json)>)
    requires Lookup(fields, "errors").None?
    ensures Lookup(fields, "data").None? ==> ReadEnvelope(JObj(fields)) == Reply(JArr([]), None)
    ensures Lookup(fields, "data").Some? && Lookup(fields, "data").value.JObj? ==>
      var d := Lookup(fields, "data").value.fields;
      && (Lookup(d, "conversionReport").None? ==> ReadEnvelope(JObj(fields)) == Reply(JArr([]), None))
      && (Lookup(d, "conversionReport").Some? && Lookup(d, "conversionReport").value.JObj? ==>
            var rep := Lookup(d, "conversionReport").value.fields;
            ReadEnvelope(JObj(fields)) ==
              Reply(if Lookup(rep, "nodes").Some? then Lookup(rep, "nodes").value else JArr([]), None))
  {
  }

  /** Exactly one side of the pair is filled, except when the API itself sends
      a null message or null nodes. */
  lemma ExactlyOneSide(fields: seq<(string, Json)>)
    ensures var r := ReadEnvelope(JObj(fields));
      (HasNodes(r) != HasError(r)) <==>
        if Lookup(fields, "errors").Some? then FirstErrorMessage(JObj(fields)) != Success(JNull)
        else ReportNodes(JObj(fields)) != Success(JNull)
  {
  }

  /** The error envelope the API sends: a list of objects with a message each. */
  function ErrorBody(messages: seq<string>): Json {
    JObj([("errors", JArr(seq(|messages|, i requires 0 <= i < |messages| => JObj([("message", JStr(messages[i]))]))))])
  }

  /** The data envelope the API sends for a conversion report. */
  function DataBody(nodes: seq<Json>): Json {
    JObj([("data", JObj([("conversionReport", JObj([("nodes", JArr(nodes))]))]))])
  }

  /** The API's error envelope is surfaced as its first message, verbatim. */
  lemma ReadErrorBody(messages: seq<string>)
    requires |messages| > 0
    ensures ReadEnvelope(ErrorBody(messages)) == Reply(JNull, Some(ApiMessage(JStr(messages[0]))))
  {
  }

  /** The API's data envelope is surfaced as its node list with no error. */
  lemma ReadDataBody(nodes: seq<Json>)
    ensures ReadEnvelope(DataBody(nodes)) == Reply(JArr(nodes), None)
  {
  }

  /** An error body surfaces the text "Invalid Signature" and no nodes. */
  lemma InvalidSignatureReply()
    ensures ReadEnvelope(JObj([("errors", JArr([JObj([("message", JStr("Invalid Signature"))])]))]))
      == Reply(JNull, Some(ApiMessage(JStr("Invalid Signature"))))
  {
    ReadErrorBody(["Invalid Signature"]);
  }
}

=== FILE: grouping.dfy ===
/** `groupby(key)[column].sum()` over (key, amount) pairs, and the stable
    descending sort and truncation of `nlargest(n)`. Groups are listed in order
    of first appearance. */
module Grouping {

  /** Sum of the amounts paired with `key`. */
  function SumFor<K(==)>(entries: seq<(K, real)>, key: K): real {
    if |entries| == 0 then 0.0
    else
      var last := entries[|entries| - 1];
      SumFor(entries[..|entries| - 1], key) + (if last.0 == key then last.1 else 0.0)
  }

  /** Sum of all amounts. */
  function Total<K>(entries: seq<(K, real)>): real {
    if |entries| == 0 then 0.0 else Total(entries[..|entries| - 1]) + entries[|entries| - 1].1
  }

  predicate DistinctKeys<K(==)>(groups: seq<(K, real)>) {
    forall i, j :: 0 <= i < j < |groups| ==> groups[i].0 != groups[j].0
  }

  predicate HasKey<K(==)>(groups: seq<(K, real)>, key: K) {
    exists i :: 0 <= i < |groups| && groups[i].0 == key
  }

  /** Position of `key` among the groups, or `|groups|`. */
  function KeyIndex<K(==)>(groups: seq<(K, real)>, key: K): (p: nat)
    ensures p <= |groups|
    ensures p < |groups| ==> groups[p].0 == key
    ensures p == |groups| ==> !HasKey(groups, key)
  {
    if |groups| == 0 then 0
    else if groups[|groups| - 1].0 == key && KeyIndex(groups[..|groups| - 1], key) == |groups| - 1 then |groups| - 1
    else if KeyIndex(groups[..|groups| - 1], key) < |groups| - 1 then KeyIndex(groups[..|groups| - 1], key)
    else |groups|
  }

  /** Adds `amount` to the group of `key`, opening a new group at the end when
      the key has not been seen. */
  function AddTo<K(==)>(groups: seq<(K, real)>, key: K, amount: real): (r: seq<(K, real)>)
    ensures KeyIndex(groups, key) < |groups| ==>
      r == groups[KeyIndex(groups, key) := (key, groups[KeyIndex(groups, key)].1 + amount)]
    ensures KeyIndex(groups, key) == |groups| ==> r == groups + [(key, amount)]
  {
    var p := KeyIndex(groups, key);
    if p < |groups| then groups[p := (key, groups[p].1 + amount)] else groups + [(key, amount)]
  }

  /** `groupby(...).sum()`: one group per distinct key, in order of first appearance. */
  function GroupSum<K(==)>(entries: seq<(K, real)>): seq<(K, real)> {
    if |entries| == 0 then []
    else AddTo(GroupSum(entries[..|entries| - 1]), entries[|entries| - 1].0, entries[|entries| - 1].1)
  }

  lemma {:induction false} TotalUpdate<K>(groups: seq<(K, real)>, p: nat, x: (K, real))
    requires p < |groups|
    ensures Total(groups[p := x]) == Total(groups) - groups[p].1 + x.1
    decreases |groups|
  {
    var n := |groups|;
    if p < n - 1 {
      assert groups[p := x][..n - 1] == groups[..n - 1][p := x];
      TotalUpdate(groups[..n - 1], p, x);
    } else {
      assert groups[p := x][..n - 1] == groups[..n - 1];
    }
  }

  lemma TotalAppend<K>(groups: seq<(K, real)>, x: (K, real))
    ensures Total(groups + [x]) == Total(groups) + x.1
  {
    assert (groups + [x])[..|groups|] == groups;
  }

  /** Sum of the amounts whose key passes `keep`. */
  function SumWhere<K>(entries: seq<(K, real)>, keep: K -> bool): real {
    if |entries| == 0 then 0.0
    else
      var last := entries[|entries| - 1];
      SumWhere(entries[..|entries| - 1], keep) + (if keep(last.0) then last.1 else 0.0)
  }

  lemma {:induction false} SumWhereUpdate<K>(groups: seq<(K, real)>, p: nat, x: (K, real), keep: K -> bool)
    requires p < |groups|
    ensures SumWhere(groups[p := x], keep) ==
      SumWhere(groups, keep) - (if keep(groups[p].0) then groups[p].1 else 0.0) + (if keep(x.0) then x.1 else 0.0)
    decreases |groups|
  {
    var n := |groups|;
    if p < n - 1 {
      assert groups[p := x][..n - 1] == groups[..n - 1][p := x];
      SumWhereUpdate(groups[..n - 1], p, x, keep);
    } else {
      assert groups[p := x][..n - 1] == groups[..n - 1];
    }
  }

  lemma SumWhereAppend<K>(groups: seq<(K, real)>, x: (K, real), keep: K -> bool)
    ensures SumWhere(groups + [x], keep) == SumWhere(groups, keep) + (if keep(x.0) then x.1 else 0.0)
  {
    assert (groups + [x])[..|groups|] == groups;
  }

  /** Grouping loses nothing and counts nothing twice: for any choice of
      keys, the groups with a chosen key add up to the entries with one. */
  lemma {:induction false} GroupSumKeepsSumWhere<K>(entries: seq<(K, real)>, keep: K -> bool)
    ensures SumWhere(GroupSum(entries), keep) == SumWhere(entries, keep)
    decreases |entries|
  {
    if |entries| > 0 {
      var prev := entries[..|entries| - 1];
      var e := entries[|entries| - 1];
      var g := GroupSum(prev);
      GroupSumKeepsSumWhere(prev, keep);
      var p := KeyIndex(g, e.0);
      if p < |g| {
        SumWhereUpdate(g, p, (e.0, g[p].1 + e.1), keep);
      } else {
        SumWhereAppend(g, (e.0, e.1), keep);
      }
    }
  }

  /** Grouping: keys are distinct, a key has a group exactly when some entry
      carries it, each group holds the sum of its key's amounts, and the groups
      add up to the sum of all amounts. */
  lemma GroupSumSpec<K>(entries: seq<(K, real)>)
    ensures DistinctKeys(GroupSum(entries))
    ensures forall k :: HasKey(GroupSum(entries), k) <==> HasKey(entries, k)
    ensures forall i :: 0 <= i < |GroupSum(entries)| ==>
      GroupSum(entries)[i].1 == SumFor(entries, GroupSum(entries)[i].0)
    ensures Total(GroupSum(entries)) == Total(entries)
  {
    GroupSumKeys(entries);
    GroupSumSums(entries);
    GroupSumTotal(entries);
  }

  /** The group keys are distinct and are exactly the keys of the entries. */
  lemma {:induction false} GroupSumKeys<K>(entries: seq<(K, real)>)
    ensures DistinctKeys(GroupSum(entries))
    ensures forall k :: HasKey(GroupSum(entries), k) <==> HasKey(entries, k)
    decreases |entries|
  {
    if |entries| > 0 {
      var n := |entries|;
      var prev := entries[..n - 1];
      var e := entries[n - 1];
      var g := GroupSum(prev);
      GroupSumKeys(prev);
      var r := GroupSum(entries);
      assert r == AddTo(g, e.0, e.1);
      var p := KeyIndex(g, e.0);
      forall k
        ensures HasKey(r, k) <==> HasKey(entries, k)
      {
        if HasKey(entries, k) {
          var i :| 0 <= i < n && entries[i].0 == k;
          if i < n - 1 {
            assert prev[i].0 == k;
            assert HasKey(prev, k);
            var j :| 0 <= j < |g| && g[j].0 == k;
            assert r[j].0 == k;
          } else if p < |g| {
            assert r[p].0 == k;
          } else {
            assert r[|g|].0 == k;
          }
        }
        if HasKey(r, k) {
          var j :| 0 <= j < |r| && r[j].0 == k;
          if j < |g| {
            assert g[j].0 == k;
            assert HasKey(g, k);
            var i :| 0 <= i < n - 1 && prev[i].0 == k;
            assert entries[i].0 == k;
          } else {
            assert entries[n - 1].0 == k;
          }
        }
      }
    }
  }

  /** Each group holds the sum of its key's amounts. */
  lemma {:induction false} GroupSumSums<K>(entries: seq<(K, real)>)
    ensures forall i :: 0 <= i < |GroupSum(entries)| ==>
      GroupSum(entries)[i].1 == SumFor(entries, GroupSum(entries)[i].0)
    decreases |entries|
  {
    if |entries| > 0 {
      var n := |entries|;
      var prev := entries[..n - 1];
      var e := entries[n - 1];
      var g := GroupSum(prev);
      GroupSumSums(prev);
      GroupSumKeys(prev);
      var r := GroupSum(entries);
      assert r == AddTo(g, e.0, e.1);
      forall i | 0 <= i < |r|
        ensures r[i].1 == SumFor(entries, r[i].0)
      {
        assert SumFor(entries, r[i].0) == SumFor(prev, r[i].0) + (if e.0 == r[i].0 then e.1 else 0.0);
        if i == |g| {
          SumForAbsent(prev, e.0);
        }
      }
    }
  }

  /** The groups add up to the sum of all amounts. */
  lemma {:induction false} GroupSumTotal<K>(entries: seq<(K, real)>)
    ensures Total(GroupSum(entries)) == Total(entries)
    decreases |entries|
  {
    if |entries| > 0 {
      var n := |entries|;
      var prev := entries[..n - 1];
      var e := entries[n - 1];
      var g := GroupSum(prev);
      GroupSumTotal(prev);
      var p := KeyIndex(g, e.0);
      if p < |g| {
        TotalUpdate(g, p, (e.0, g[p].1 + e.1));
      } else {
        TotalAppend(g, (e.0, e.1));
      }
    }
  }

  lemma {:induction false} SumForAbsent<K>(entries: seq<(K, real)>, key: K)
    requires !HasKey(entries, key)
    ensures SumFor(entries, key) == 0.0
    decreases |entries|
  {
    if |entries| > 0 {
      var prev := entries[..|entries| - 1];
      SumForAbsent(prev, key);
    }
  }

  /** Non-increasing by amount. */
  predicate SortedDesc<K>(s: seq<(K, real)>) {
    forall i, j :: 0 <= i < j < |s| ==> s[i].1 >= s[j].1
  }

  /** A head no smaller than every element keeps a descending sequence descending. */
  lemma ConsSorted<K>(h: (K, real), rest: seq<(K, real)>)
    requires SortedDesc(rest) && forall k :: 0 <= k < |rest| ==> rest[k].1 <= h.1
    ensures SortedDesc([h] + rest)
  {
    var r := [h] + rest;
    forall i, j | 0 <= i < j < |r|
      ensures r[i].1 >= r[j].1
    {
      assert r[j] == rest[j - 1];
      if i > 0 {
        assert r[i] == rest[i - 1];
      }
    }
  }

  /** Places `x` after every element at least as large, before the first smaller one. */
  function Insert<K>(s: seq<(K, real)>, x: (K, real)): (r: seq<(K, real)>)
    requires SortedDesc(s)
    ensures |r| == |s| + 1
    ensures multiset(r) == multiset(s) + multiset{x}
    ensures forall k :: 0 <= k < |r| ==> r[k] == x || r[k] in s
    ensures SortedDesc(r)
  {
    if |s| == 0 then [x]
    else if s[0].1 < x.1 then
      ConsSorted(x, s);
      [x] + s
    else
      var rest := Insert(s[1..], x);
      assert forall k :: 0 <= k < |rest| ==> rest[k].1 <= s[0].1 by {
        forall k | 0 <= k < |rest|
          ensures rest[k].1 <= s[0].1
        {
          if rest[k] != x {
            var m :| 0 <= m < |s[1..]| && s[1..][m] == rest[k];
            assert s[m + 1] == rest[k];
          }
        }
      }
      assert s == [s[0]] + s[1..];
      ConsSorted(s[0], rest);
      [s[0]] + rest
  }

  /** Stable sort by amount, largest first. */
  function SortDesc<K>(s: seq<(K, real)>): (r: seq<(K, real)>)
    ensures |r| == |s|
    ensures multiset(r) == multiset(s)
    ensures SortedDesc(r)
  {
    if |s| == 0 then []
    else
      assert s == s[..|s| - 1] + [s[|s| - 1]];
      Insert(SortDesc(s[..|s| - 1]), s[|s| - 1])
  }

  /** Inserting a new key into a sequence with distinct keys keeps them distinct. */
  lemma {:induction false} InsertKeepsKeysDistinct<K>(s: seq<(K, real)>, x: (K, real))
    requires SortedDesc(s) && DistinctKeys(s) && !HasKey(s, x.0)
    ensures DistinctKeys(Insert(s, x))
    decreases |s|
  {
    if |s| > 0 && s[0].1 >= x.1 {
      var tail := s[1..];
      assert !HasKey(tail, x.0);
      InsertKeepsKeysDistinct(tail, x);
      var rest := Insert(tail, x);
      assert Insert(s, x) == [s[0]] + rest;
      forall k | 0 <= k < |rest|
        ensures rest[k].0 != s[0].0
      {
        if rest[k] == x {
          assert s[0].0 != x.0;
        } else {
          var m :| 0 <= m < |tail| && tail[m] == rest[k];
          assert s[m + 1] == rest[k];
        }
      }
    } else if |s| > 0 {
      var r := [x] + s;
      forall i, j | 0 <= i < j < |r|
        ensures r[i].0 != r[j].0
      {
        if i == 0 {
          assert r[j] == s[j - 1];
        } else {
          assert r[i] == s[i - 1] && r[j] == s[j - 1];
        }
      }
    }
  }

  /** Sorting keeps keys distinct. */
  lemma {:induction false} SortKeepsKeysDistinct<K>(s: seq<(K, real)>)
    requires DistinctKeys(s)
    ensures DistinctKeys(SortDesc(s))
    decreases |s|
  {
    if |s| > 0 {
      var prefix := s[..|s| - 1];
      var last := s[|s| - 1];
      SortKeepsKeysDistinct(prefix);
      var sorted := SortDesc(prefix);
      forall m | 0 <= m < |sorted|
        ensures sorted[m].0 != last.0
      {
        assert sorted[m] in multiset(prefix);
        var j :| 0 <= j < |prefix| && prefix[j] == sorted[m];
        assert s[j] == prefix[j];
      }
      InsertKeepsKeysDistinct(sorted, last);
    }
  }

  function Min(a: nat, b: nat): nat {
    if a <= b then a else b
  }

  /** In a descending sequence, an element past the first `m` is no larger than the m-th. */
  lemma BeyondPrefix<K>(sorted: seq<(K, real)>, m: nat, g: (K, real))
    requires SortedDesc(sorted) && m <= |sorted|
    requires g in sorted && g !in sorted[..m]
    ensures m < |sorted| && (m > 0 ==> g.1 <= sorted[m - 1].1)
  {
    var p :| 0 <= p < |sorted| && sorted[p] == g;
  }

  /** A prefix of a permutation of `groups` is a sub-multiset of it. */
  lemma PrefixOfPermutation<K>(groups: seq<(K, real)>, sorted: seq<(K, real)>, m: nat)
    requires multiset(sorted) == multiset(groups) && m <= |sorted|
    ensures multiset(sorted[..m]) <= multiset(groups)
    ensures forall k :: 0 <= k < m ==> sorted[k] in groups
  {
    assert sorted == sorted[..m] + sorted[m..];
    forall k | 0 <= k < m
      ensures sorted[k] in groups
    {
      assert sorted[k] in multiset(sorted);
    }
  }

  lemma PrefixKeepsKeysDistinct<K>(s: seq<(K, real)>, m: nat)
    requires DistinctKeys(s) && m <= |s|
    ensures DistinctKeys(s[..m])
  {
    forall i, j | 0 <= i < j < m
      ensures s[..m][i].0 != s[..m][j].0
    {
      assert s[..m][i] == s[i] && s[..m][j] == s[j];
    }
  }

  /** Every group outside the first `m` of a descending permutation comes
      after them, so no more than the last of them. */
  lemma LeftOutOfPrefix<K>(groups: seq<(K, real)>, sorted: seq<(K, real)>, m: nat)
    requires multiset(sorted) == multiset(groups) && SortedDesc(sorted) && m <= |sorted|
    ensures forall g :: g in groups && g !in sorted[..m] ==> m < |sorted| && (m > 0 ==> g.1 <= sorted[m - 1].1)
  {
    forall g | g in groups && g !in sorted[..m]
      ensures m < |sorted| && (m > 0 ==> g.1 <= sorted[m - 1].1)
    {
      assert g in multiset(groups);
      BeyondPrefix(sorted, m, g);
    }
  }

  /** Sorting and then taking a prefix keeps keys distinct. */
  lemma TopKeepsKeysDistinct<K>(groups: seq<(K, real)>, m: nat)
    requires m <= |groups|
    ensures DistinctKeys(groups) ==> DistinctKeys(SortDesc(groups)[..m])
  {
    if DistinctKeys(groups) {
      SortKeepsKeysDistinct(groups);
      PrefixKeepsKeysDistinct(SortDesc(groups), m);
    }
  }

  /** `nlargest(n)`: the first `n` of the stable descending sort. */
  function Largest<K(==)>(groups: seq<(K, real)>, n: nat): (top: seq<(K, real)>)
    ensures |top| == Min(n, |groups|)
    ensures SortedDesc(top)
    ensures multiset(top) <= multiset(groups)
    ensures DistinctKeys(groups) ==> DistinctKeys(top)
    ensures forall g :: g in groups && g !in top ==> |top| == n && (n > 0 ==> g.1 <= top[n - 1].1)
  {
    var sorted := SortDesc(groups);
    var m := Min(n, |groups|);
    PrefixOfPermutation(groups, sorted, m);
    LeftOutOfPrefix(groups, sorted, m);
    TopKeepsKeysDistinct(groups, m);
    sorted[..m]
  }

  /** Every group shown is one of the input groups. */
  lemma LargestFromGroups<K>(groups: seq<(K, real)>, n: nat)
    ensures forall k :: 0 <= k < |Largest(groups, n)| ==> Largest(groups, n)[k] in groups
  {
    PrefixOfPermutation(groups, SortDesc(groups), Min(n, |groups|));
  }
}

=== FILE: json.dfy ===
/** Already-parsed JSON values, as `json.loads` hands them to the dashboard,
    and the handful of Python operations the dashboard applies to them:
    `key in d`, `d[key]`, `d[i]`, `d.get(key, default)`, iteration and
    truthiness. Each operation either yields a value or raises the Python
    exception the interpreter would raise, as a `PyError`. */
module Json {
  import opened Wrappers

  /** A JSON value. Objects keep their members in document order; when a key
      occurs more than once the LAST occurrence is the one a Python dict
      holds. Integers and fractional numbers are distinct, as in `json.loads`. */
  datatype Json =
    | JNull
    | JBool(b: bool)
    | JInt(i: int)
    | JFloat(f: real)
    | JStr(s: string)
    | JArr(elems: seq<Json>)
    | JObj(fields: seq<(string, Json)>)

  /** The Python exceptions the modelled code can raise. */
  datatype PyError =
    | KeyError(key: Json)
    | IndexError
    | TypeError
    | AttributeError
    | ValueError

  /** The value a dict built from `fields` holds for `key`: the last member with that key. */
  function Lookup(fields: seq<(string, Json)>, key: string): (r: Option<Json>)
    ensures r.None? <==> forall i :: 0 <= i < |fields| ==> fields[i].0 != key
    ensures r.Some? ==>
      exists i :: 0 <= i < |fields| && fields[i] == (key, r.value) &&
        forall j :: i < j < |fields| ==> fields[j].0 != key
  {
    if |fields| == 0 then None
    else if fields[|fields| - 1].0 == key then Some(fields[|fields| - 1].1)
    else Lookup(fields[..|fields| - 1], key)
  }

  /** A member that no later member overrides is the one a lookup finds. */
  lemma LookupLast(fields: seq<(string, Json)>, key: string, i: int)
    requires 0 <= i < |fields| && fields[i].0 == key
    requires forall j :: i < j < |fields| ==> fields[j].0 != key
    ensures Lookup(fields, key) == Some(fields[i].1)
  {
  }

  /** True when `needle` occurs in `hay` starting at position `i`. */
  predicate OccursAt(needle: string, hay: string, i: int) {
    0 <= i <= |hay| - |needle| && hay[i..i + |needle|] == needle
  }

  /** True when `needle` occurs as a contiguous piece of `hay`. */
  predicate IsInfix(needle: string, hay: string) {
    exists i | 0 <= i <= |hay| - |needle| :: OccursAt(needle, hay, i)
  }

  /** Python's `key in d` for a string `key`: membership of a dict key, of a
      list element, or of a substring; any other operand raises TypeError. */
  function Contains(d: Json, key: string): (r: Result<bool, PyError>)
    ensures d.JObj? ==> r == Success(Lookup(d.fields, key).Some?)
    ensures d.JArr? ==> r == Success(JStr(key) in d.elems)
    ensures d.JStr? ==> r == Success(IsInfix(key, d.s))
    ensures r.Failure? <==> !(d.JObj? || d.JArr? || d.JStr?)
  {
    match d
    case JObj(fs) => Success(Lookup(fs, key).Some?)
    case JArr(es) => Success(JStr(key) in es)
    case JStr(s) => Success(IsInfix(key, s))
    case _ => Failure(TypeError)
  }

  /** Python's `d[key]` for a string `key`. */
  function Subscript(d: Json, key: string): (r: Result<Json, PyError>)
    ensures r.Success? <==> d.JObj? && Lookup(d.fields, key).Some?
    ensures r.Success? ==> r.value == Lookup(d.fields, key).value
    ensures d.JObj? && r.Failure? ==> r.error == KeyError(JStr(key))
    ensures !d.JObj? ==> r == Failure(TypeError)
  {
    match d
    case JObj(fs) =>
      (match Lookup(fs, key)
       case Some(v) => Success(v)
       case None => Failure(KeyError(JStr(key))))
    case _ => Failure(TypeError)
  }

  /** Python's `d[i]` for an integer `i`, negative indices counting from the end. */
  function At(d: Json, i: int): (r: Result<Json, PyError>)
    ensures d.JArr? && 0 <= i < |d.elems| ==> r == Success(d.elems[i])
    ensures d.JArr? && -|d.elems| <= i < 0 ==> r == Success(d.elems[|d.elems| + i])
    ensures d.JArr? && !(-|d.elems| <= i < |d.elems|) ==> r == Failure(IndexError)
    ensures d.JStr? && 0 <= i < |d.s| ==> r == Success(JStr([d.s[i]]))
    ensures d.JStr? && -|d.s| <= i < 0 ==> r == Success(JStr([d.s[|d.s| + i]]))
    ensures d.JStr? && !(-|d.s| <= i < |d.s|) ==> r == Failure(IndexError)
    ensures d.JObj? ==> r == Failure(KeyError(JInt(i)))
    ensures !(d.JArr? || d.JStr? || d.JObj?) ==> r == Failure(TypeError)
  {
    match d
    case JArr(es) =>
      if 0 <= i < |es| then Success(es[i])
      else if -|es| <= i < 0 then Success(es[|es| + i])
      else Failure(IndexError)
    case JStr(s) =>
      if 0 <= i < |s| then Success(JStr([s[i]]))
      else if -|s| <= i < 0 then Success(JStr([s[|s| + i]]))
      else Failure(IndexError)
    case JObj(_) => Failure(KeyError(JInt(i)))
    case _ => Failure(TypeError)
  }

  /** Python's `d.get(key, default)`: only dicts have a `get` method. */
  function GetOr(d: Json, key: string, default: Json): (r: Result<Json, PyError>)
    ensures d.JObj? && Lookup(d.fields, key).Some? ==> r == Success(Lookup(d.fields, key).value)
    ensures d.JObj? && Lookup(d.fields, key).None? ==> r == Success(default)
    ensures !d.JObj? ==> r == Failure(AttributeError)
  {
    match d
    case JObj(fs) =>
      (match Lookup(fs, key)
       case Some(v) => Success(v)
       case None => Success(default))
    case _ => Failure(AttributeError)
  }

  /** The keys a dict built from `fields` holds, as the strings iterating it
      yields: each key once, in order of its first occurrence (a repeated
      key overrides the value but keeps its place; see KeysInFirstOccurrenceOrder). */
  function Keys(fields: seq<(string, Json)>): (r: seq<Json>)
    ensures forall i :: 0 <= i < |r| ==> r[i].JStr?
    ensures forall key :: JStr(key) in r <==> exists i :: 0 <= i < |fields| && fields[i].0 == key
    ensures forall i, j :: 0 <= i < j < |r| ==> r[i] != r[j]
    ensures |r| <= |fields| && (|fields| > 0 ==> |r| > 0)
  {
    if |fields| == 0 then []
    else
      var prefix := fields[..|fields| - 1];
      var prev := Keys(prefix);
      var key := JStr(fields[|fields| - 1].0);
      assert forall k :: JStr(k) in prev ==> exists i :: 0 <= i < |fields| && fields[i].0 == k by {
        forall k | JStr(k) in prev
          ensures exists i :: 0 <= i < |fields| && fields[i].0 == k
        {
          var i :| 0 <= i < |prefix| && prefix[i].0 == k;
          assert fields[i].0 == k;
        }
      }
      if key in prev then prev else prev + [key]
  }

  /** Of two keys, the one listed first occurs in the object before any
      occurrence of the other. */
  lemma {:induction false} KeysInFirstOccurrenceOrder(fields: seq<(string, Json)>)
    ensures forall i, j :: 0 <= i < j < |Keys(fields)| ==>
      exists p :: 0 <= p < |fields| && fields[p].0 == Keys(fields)[i].s && forall q :: 0 <= q <= p ==> fields[q].0 != Keys(fields)[j].s
    decreases |fields|
  {
    if |fields| > 0 {
      var prefix := fields[..|fields| - 1];
      var prev := Keys(prefix);
      var key := JStr(fields[|fields| - 1].0);
      var r := Keys(fields);
      KeysInFirstOccurrenceOrder(prefix);
      forall i, j | 0 <= i < j < |r|
        ensures exists p :: 0 <= p < |fields| && fields[p].0 == r[i].s && forall q :: 0 <= q <= p ==> fields[q].0 != r[j].s
      {
        assert r[i] == prev[i];
        if j < |prev| {
          assert r[j] == prev[j];
          var p :| 0 <= p < |prefix| && prefix[p].0 == prev[i].s && forall q :: 0 <= q <= p ==> prefix[q].0 != prev[j].s;
          assert fields[p].0 == prev[i].s;
          forall q | 0 <= q <= p
            ensures fields[q].0 != r[j].s
          {
            assert fields[q] == prefix[q];
          }
        } else {
          assert r == prev + [key] && r[j] == key;
          assert prev[i].JStr? && JStr(prev[i].s) == prev[i];
          assert JStr(prev[i].s) in prev;
          assert exists p :: 0 <= p < |prefix| && prefix[p].0 == prev[i].s;
          var p :| 0 <= p < |prefix| && prefix[p].0 == prev[i].s;
          assert fields[p].0 == r[i].s;
          forall q | 0 <= q <= p
            ensures fields[q].0 != key.s
          {
            assert fields[q] == prefix[q];
            assert JStr(prefix[q].0) in prev;
          }
        }
      }
    } else {
      assert |Keys(fields)| == 0;
    }
  }

  /** The characters of `s` as the one-character strings iterating a str yields. */
  function Chars(s: string): (r: seq<Json>)
    ensures |r| == |s|
    ensures forall i :: 0 <= i < |r| ==> r[i] == JStr([s[i]])
  {
    if |s| == 0 then [] else Chars(s[..|s| - 1]) + [JStr([s[|s| - 1]])]
  }

  /** What `for x in d:` walks over: list elements, string characters or dict
      keys; numbers, booleans and None are not iterable. */
  function Iterate(d: Json): (r: Result<seq<Json>, PyError>)
    ensures d.JArr? ==> r == Success(d.elems)
    ensures d.JStr? ==> r.Success? && |r.value| == |d.s| && forall k :: 0 <= k < |d.s| ==> r.value[k] == JStr([d.s[k]])
    ensures d.JObj? ==> r.Success? && forall key :: JStr(key) in r.value <==> Lookup(d.fields, key).Some?
    ensures d.JObj? ==> r.Success? && forall i, j :: 0 <= i < j < |r.value| ==> r.value[i] != r.value[j]
    ensures r.Success? ==> forall k :: 0 <= k < |r.value| ==> d.JArr? || r.value[k].JStr?
    ensures r.Failure? <==> !(d.JArr? || d.JStr? || d.JObj?)
  {
    match d
    case JArr(es) => Success(es)
    case JStr(s) => Success(Chars(s))
    case JObj(fs) => Success(Keys(fs))
    case _ => Failure(TypeError)
  }

  /** Python truthiness: None, False, zero and empty containers are false;
      a container is true exactly when iterating it yields something. */
  function Truthy(d: Json): (t: bool)
    ensures (d.JArr? || d.JStr? || d.JObj?) ==> (t <==> |Iterate(d).value| > 0)
    ensures (d.JNull? || d.JBool? || d.JInt? || d.JFloat?) ==> (t <==> d != JNull && d != JBool(false) && d != JInt(0) && d != JFloat(0.0))
  {
    match d
    case JNull => false
    case JBool(b) => b
    case JInt(i) => i != 0
    case JFloat(f) => f != 0.0
    case JStr(s) => |s| > 0
    case JArr(es) => |es| > 0
    case JObj(fs) => |fs| > 0
  }
}

=== FILE: normalize.dfy ===
/** The row-flattening loop of the dashboard: for every node, every order in
    `node.get('orders', [])` and every item in `order.get('items', [])`, one
    row that copies the node's purchase time, completion time, status and
    commission next to the item's name, quantity and price. The loop is not
    inside a `try`, so the first exception ends the whole computation. */
module Normalize {
  import opened Wrappers
  import opened Json
  import opened Decimal

  /** One row of the table. `completeTime` is None where the source writes NaT. */
  datatype Row = Row(
    purchaseTime: Json,
    completeTime: Option<Json>,
    status: Json,
    commission: real,
    itemName: Json,
    qty: Json,
    itemPrice: real)

  /** The node's four fields read and the commission converted without
      raising: what the row needs of `n` before it reads the item. */
  predicate NodeFieldsRead(n: Json) {
    && Subscript(n, "purchaseTime").Success?
    && Subscript(n, "completeTime").Success?
    && Subscript(n, "conversionStatus").Success?
    && Subscript(n, "totalCommission").Success? && ToFloat(Subscript(n, "totalCommission").value).Success?
  }

  /** The row for `item` under node `n`, reading the fields in the order the
      dict literal evaluates them. */
  function MakeRow(n: Json, item: Json): (r: Result<Row, PyError>)
    ensures r.Success? ==>
      && Subscript(n, "purchaseTime") == Success(r.value.purchaseTime)
      && Subscript(n, "conversionStatus") == Success(r.value.status)
      && Subscript(n, "totalCommission").Success?
      && ToFloat(Subscript(n, "totalCommission").value) == Success(r.value.commission)
      && Subscript(item, "itemName") == Success(r.value.itemName)
      && Subscript(item, "qty") == Success(r.value.qty)
      && Subscript(item, "itemPrice").Success?
      && ToFloat(Subscript(item, "itemPrice").value) == Success(r.value.itemPrice)
    ensures r.Success? ==>
      && Subscript(n, "completeTime").Success?
      && (r.value.completeTime.None? <==> !Truthy(Subscript(n, "completeTime").value))
      && (r.value.completeTime.Some? ==> r.value.completeTime.value == Subscript(n, "completeTime").value)
    ensures r.Success? <==>
      && Subscript(n, "purchaseTime").Success?
      && Subscript(n, "completeTime").Success?
      && Subscript(n, "conversionStatus").Success?
      && Subscript(n, "totalCommission").Success? && ToFloat(Subscript(n, "totalCommission").value).Success?
      && Subscript(item, "itemName").Success?
      && Subscript(item, "qty").Success?
      && Subscript(item, "itemPrice").Success? && ToFloat(Subscript(item, "itemPrice").value).Success?
    ensures Subscript(n, "purchaseTime").Failure? ==> r == Failure(Subscript(n, "purchaseTime").error)
    ensures Subscript(n, "purchaseTime").Success? && Subscript(n, "completeTime").Failure? ==>
      r == Failure(Subscript(n, "completeTime").error)
    ensures (Subscript(n, "purchaseTime").Success? && Subscript(n, "completeTime").Success?
             && Subscript(n, "conversionStatus").Failure?) ==>
      r == Failure(Subscript(n, "conversionStatus").error)
    ensures (Subscript(n, "purchaseTime").Success? && Subscript(n, "completeTime").Success?
             && Subscript(n, "conversionStatus").Success? && Subscript(n, "totalCommission").Failure?) ==>
      r == Failure(Subscript(n, "totalCommission").error)
    ensures (Subscript(n, "purchaseTime").Success? && Subscript(n, "completeTime").Success?
             && Subscript(n, "conversionStatus").Success? && Subscript(n, "totalCommission").Success?
             && ToFloat(Subscript(n, "totalCommission").value).Failure?) ==>
      r == Failure(ToFloat(Subscript(n, "totalCommission").value).error)
    ensures NodeFieldsRead(n) && Subscript(item, "itemName").Failure? ==>
      r == Failure(Subscript(item, "itemName").error)
    ensures NodeFieldsRead(n) && Subscript(item, "itemName").Success? && Subscript(item, "qty").Failure? ==>
      r == Failure(Subscript(item, "qty").error)
    ensures (NodeFieldsRead(n) && Subscript(item, "itemName").Success? && Subscript(item, "qty").Success?
             && Subscript(item, "itemPrice").Failure?) ==>
      r == Failure(Subscript(item, "itemPrice").error)
    ensures (NodeFieldsRead(n) && Subscript(item, "itemName").Success? && Subscript(item, "qty").Success?
             && Subscript(item, "itemPrice").Success? && ToFloat(Subscript(item, "itemPrice").value).Failure?) ==>
      r == Failure(ToFloat(Subscript(item, "itemPrice").value).error)
  {
    var purchaseTime :- Subscript(n, "purchaseTime");
    var completeTime :- Subscript(n, "completeTime");
    var status :- Subscript(n, "conversionStatus");
    var commissionValue :- Subscript(n, "totalCommission");
    var commission :- ToFloat(commissionValue);
    var name :- Subscript(item, "itemName");
    var qty :- Subscript(item, "qty");
    var priceValue :- Subscript(item, "itemPrice");
    var price :- ToFloat(priceValue);
    Success(Row(purchaseTime, if Truthy(completeTime) then Some(completeTime) else None,
                status, commission, name, qty, price))
  }

  /** Applies `f` to each element in order, stopping at the first failure:
      a result exactly when every element succeeds, element k's value in
      place k; otherwise the error of the first element that fails. */
  function MapAll<T, U, E>(f: T -> Result<U, E>, xs: seq<T>): (r: Result<seq<U>, E>)
    ensures r.Success? <==> forall k :: 0 <= k < |xs| ==> f(xs[k]).Success?
    ensures r.Success? ==> |r.value| == |xs| && forall k :: 0 <= k < |xs| ==> f(xs[k]) == Success(r.value[k])
    ensures r.Failure? ==> exists k :: 0 <= k < |xs| && f(xs[k]) == Failure(r.error) && (forall j :: 0 <= j < k ==> f(xs[j]).Success?)
    decreases |xs|
  {
    if |xs| == 0 then Success([])
    else
      var tail := xs[1..];
      assert forall k :: 1 <= k < |xs| ==> xs[k] == tail[k - 1];
      match f(xs[0])
      case Failure(e) => Failure(e)
      case Success(first) =>
        match MapAll(f, tail)
        case Failure(e) =>
          assert exists k :: 0 <= k < |xs| && f(xs[k]) == Failure(e) && (forall j :: 0 <= j < k ==> f(xs[j]).Success?) by {
            var k :| 0 <= k < |tail| && f(tail[k]) == Failure(e) && (forall j :: 0 <= j < k ==> f(tail[j]).Success?);
            assert f(xs[k + 1]) == Failure(e);
            forall j | 0 <= j < k + 1
              ensures f(xs[j]).Success?
            {
              if j > 0 {
                assert f(tail[j - 1]).Success?;
              }
            }
          }
          Failure(e)
        case Success(rest) =>
          assert forall k :: 1 <= k < |xs| ==> f(xs[k]) == Success(([first] + rest)[k]);
          Success([first] + rest)
  }

  /** Rows for the items of one order, in order: a table exactly when every
      item makes a row, row k made from item k; otherwise the error of the
      first item that fails. */
  function ItemRows(n: Json, items: seq<Json>): (r: Result<seq<Row>, PyError>)
    ensures r.Success? <==> forall k :: 0 <= k < |items| ==> MakeRow(n, items[k]).Success?
    ensures r.Success? ==> |r.value| == |items| && forall k :: 0 <= k < |items| ==> MakeRow(n, items[k]) == Success(r.value[k])
    ensures r.Failure? ==> exists k :: 0 <= k < |items| && MakeRow(n, items[k]) == Failure(r.error) && (forall j :: 0 <= j < k ==> MakeRow(n, items[j]).Success?)
  {
    MapAll(item => MakeRow(n, item), items)
  }

  /** Rows for one order: `for item in order.get('items', [])`. */
  function OrderRows(n: Json, order: Json): Result<seq<Row>, PyError> {
    var itemsValue :- GetOr(order, "items", JArr([]));
    var items :- Iterate(itemsValue);
    ItemRows(n, items)
  }

  /** Rows for the orders of one node, in order. */
  function OrderListRows(n: Json, orders: seq<Json>): Result<seq<Row>, PyError> {
    if |orders| == 0 then Success([])
    else
      var first :- OrderRows(n, orders[0]);
      var rest :- OrderListRows(n, orders[1..]);
      Success(first + rest)
  }

  /** Rows for one node: `for order in n.get('orders', [])`. */
  function NodeRows(n: Json): Result<seq<Row>, PyError> {
    var ordersValue :- GetOr(n, "orders", JArr([]));
    var orders :- Iterate(ordersValue);
    OrderListRows(n, orders)
  }

  /** Rows for the nodes of the list, in order. */
  function NodeListRows(nodes: seq<Json>): Result<seq<Row>, PyError> {
    if |nodes| == 0 then Success([])
    else
      var first :- NodeRows(nodes[0]);
      var rest :- NodeListRows(nodes[1..]);
      Success(first + rest)
  }

  /** The whole flattening loop over the `nodes` value of the reply. */
  function BuildRows(nodes: Json): Result<seq<Row>, PyError> {
    var list :- Iterate(nodes);
    NodeListRows(list)
  }

  // ---- The loop as the (node, item) pairs it visits ----

  /** The (node, item) pairs the inner loop visits for one order. */
  function OrderVisits(n: Json, order: Json): (r: Result<seq<(Json, Json)>, PyError>)
    ensures r.Success? ==> forall k :: 0 <= k < |r.value| ==> r.value[k].0 == n
  {
    var itemsValue :- GetOr(order, "items", JArr([]));
    var items :- Iterate(itemsValue);
    Success(seq(|items|, k requires 0 <= k < |items| => (n, items[k])))
  }

  function OrderListVisits(n: Json, orders: seq<Json>): Result<seq<(Json, Json)>, PyError> {
    if |orders| == 0 then Success([])
    else
      var first :- OrderVisits(n, orders[0]);
      var rest :- OrderListVisits(n, orders[1..]);
      Success(first + rest)
  }

  function NodeVisits(n: Json): Result<seq<(Json, Json)>, PyError> {
    var ordersValue :- GetOr(n, "orders", JArr([]));
    var orders :- Iterate(ordersValue);
    OrderListVisits(n, orders)
  }

  function NodeListVisits(nodes: seq<Json>): Result<seq<(Json, Json)>, PyError> {
    if |nodes| == 0 then Success([])
    else
      var first :- NodeVisits(nodes[0]);
      var rest :- NodeListVisits(nodes[1..]);
      Success(first + rest)
  }

  /** Every (node, item) pair the three nested loops reach, in the order
      they reach them, or the error of walking the reply itself. */
  function Visits(nodes: Json): Result<seq<(Json, Json)>, PyError> {
    var list :- Iterate(nodes);
    NodeListVisits(list)
  }

  /** The row of a visited (node, item) pair. */
  function PairRow(p: (Json, Json)): Result<Row, PyError> {
    MakeRow(p.0, p.1)
  }

  /** `f` succeeds on every element. */
  ghost predicate AllSucceed<T, U, E>(f: T -> Result<U, E>, xs: seq<T>) {
    forall k :: 0 <= k < |xs| ==> f(xs[k]).Success?
  }

  /** `ys` holds, in order, the value of `f` on each element of `xs`. */
  ghost predicate Produces<T, U, E>(f: T -> Result<U, E>, xs: seq<T>, ys: seq<U>) {
    |ys| == |xs| && forall k :: 0 <= k < |xs| ==> f(xs[k]) == Success(ys[k])
  }

  lemma AllSucceedAppend<T, U, E>(f: T -> Result<U, E>, a: seq<T>, b: seq<T>)
    ensures AllSucceed(f, a + b) <==> AllSucceed(f, a) && AllSucceed(f, b)
  {
    if AllSucceed(f, a + b) {
      forall k | 0 <= k < |a|
        ensures f(a[k]).Success?
      {
        assert (a + b)[k] == a[k];
      }
      forall k | 0 <= k < |b|
        ensures f(b[k]).Success?
      {
        assert (a + b)[|a| + k] == b[k];
      }
    }
    if AllSucceed(f, a) && AllSucceed(f, b) {
      forall k | 0 <= k < |a + b|
        ensures f((a + b)[k]).Success?
      {
        if k < |a| {
          assert (a + b)[k] == a[k];
        } else {
          assert (a + b)[k] == b[k - |a|];
        }
      }
    }
  }

  lemma ProducesAppend<T, U, E>(f: T -> Result<U, E>, a: seq<T>, ra: seq<U>, b: seq<T>, rb: seq<U>)
    requires Produces(f, a, ra) && Produces(f, b, rb)
    ensures Produces(f, a + b, ra + rb)
  {
    forall k | |a| <= k < |a + b|
      ensures f((a + b)[k]) == Success((ra + rb)[k])
    {
      assert (a + b)[k] == b[k - |a|] && (ra + rb)[k] == rb[k - |a|];
    }
  }

  /** One order: rows exactly when its pairs can be walked and all make rows. */
  lemma OrderRowsVisits(n: Json, order: Json)
    ensures OrderRows(n, order).Success? <==> OrderVisits(n, order).Success? && AllSucceed(PairRow, OrderVisits(n, order).value)
    ensures OrderRows(n, order).Success? ==> Produces(PairRow, OrderVisits(n, order).value, OrderRows(n, order).value)
  {
    var itemsValue := GetOr(order, "items", JArr([]));
    if itemsValue.Success? && Iterate(itemsValue.value).Success? {
      var items := Iterate(itemsValue.value).value;
      var ps := OrderVisits(n, order).value;
      assert |ps| == |items|;
      forall k | 0 <= k < |items|
        ensures PairRow(ps[k]) == MakeRow(n, items[k])
      {
        assert ps[k] == (n, items[k]);
      }
    }
  }

  lemma {:induction false} OrderListRowsVisits(n: Json, orders: seq<Json>)
    ensures OrderListRows(n, orders).Success? <==>
      OrderListVisits(n, orders).Success? && AllSucceed(PairRow, OrderListVisits(n, orders).value)
    ensures OrderListRows(n, orders).Success? ==> Produces(PairRow, OrderListVisits(n, orders).value, OrderListRows(n, orders).value)
    decreases |orders|
  {
    if |orders| > 0 {
      OrderRowsVisits(n, orders[0]);
      OrderListRowsVisits(n, orders[1..]);
      var first := OrderVisits(n, orders[0]);
      var rest := OrderListVisits(n, orders[1..]);
      if first.Success? && rest.Success? {
        AllSucceedAppend(PairRow, first.value, rest.value);
        if OrderListRows(n, orders).Success? {
          ProducesAppend(PairRow, first.value, OrderRows(n, orders[0]).value, rest.value, OrderListRows(n, orders[1..]).value);
        }
      }
    }
  }

  lemma NodeRowsVisits(n: Json)
    ensures NodeRows(n).Success? <==> NodeVisits(n).Success? && AllSucceed(PairRow, NodeVisits(n).value)
    ensures NodeRows(n).Success? ==> Produces(PairRow, NodeVisits(n).value, NodeRows(n).value)
  {
    var ordersValue := GetOr(n, "orders", JArr([]));
    if ordersValue.Success? && Iterate(ordersValue.value).Success? {
      OrderListRowsVisits(n, Iterate(ordersValue.value).value);
    }
  }

  lemma {:induction false} NodeListRowsVisits(nodes: seq<Json>)
    ensures NodeListRows(nodes).Success? <==> NodeListVisits(nodes).Success? && AllSucceed(PairRow, NodeListVisits(nodes).value)
    ensures NodeListRows(nodes).Success? ==> Produces(PairRow, NodeListVisits(nodes).value, NodeListRows(nodes).value)
    decreases |nodes|
  {
    if |nodes| > 0 {
      NodeRowsVisits(nodes[0]);
      NodeListRowsVisits(nodes[1..]);
      var first := NodeVisits(nodes[0]);
      var rest := NodeListVisits(nodes[1..]);
      if first.Success? && rest.Success? {
        AllSucceedAppend(PairRow, first.value, rest.value);
        if NodeListRows(nodes).Success? {
          ProducesAppend(PairRow, first.value, NodeRows(nodes[0]).value, rest.value, NodeListRows(nodes[1..]).value);
        }
      }
    }
  }

  /** For any reply whatever its encoding of numbers: the loop yields a table
      exactly when the reply can be walked and every visited (node, item)
      pair makes a row, and then the table has one row per visited pair, row
      k made from pair k. */
  lemma BuildRowsVisits(nodes: Json)
    ensures BuildRows(nodes).Success? <==> Visits(nodes).Success? && AllSucceed(PairRow, Visits(nodes).value)
    ensures BuildRows(nodes).Success? ==> Produces(PairRow, Visits(nodes).value, BuildRows(nodes).value)
  {
    if Iterate(nodes).Success? {
      NodeListRowsVisits(Iterate(nodes).value);
    }
  }

  /** A node without an `orders` key, or with an empty one, yields no rows,
      whatever else it lacks. */
  lemma NodeWithoutOrders(fields: seq<(string, Json)>)
    requires Lookup(fields, "orders").None? || Lookup(fields, "orders") == Some(JArr([]))
    ensures NodeRows(JObj(fields)) == Success([])
  {
  }

  // ---- The API's schema, and what flattening makes of it ----

  datatype Item = Item(name: string, price: real, qty: int)
  datatype Order = Order(items: seq<Item>)

  /** A conversion node as the API describes it; a completion time of 0 means
      "not completed". */
  datatype Conversion = Conversion(
    purchaseTime: int,
    completeTime: int,
    status: string,
    commission: real,
    orders: seq<Order>)

  function ItemJson(it: Item): Json {
    JObj([("itemName", JStr(it.name)), ("itemPrice", JFloat(it.price)), ("qty", JInt(it.qty))])
  }

  function ItemsJson(items: seq<Item>): (r: seq<Json>)
    ensures |r| == |items|
  {
    if |items| == 0 then [] else [ItemJson(items[0])] + ItemsJson(items[1..])
  }

  function OrderJson(o: Order): Json {
    JObj([("items", JArr(ItemsJson(o.items)))])
  }

  function OrdersJson(orders: seq<Order>): (r: seq<Json>)
    ensures |r| == |orders|
  {
    if |orders| == 0 then [] else [OrderJson(orders[0])] + OrdersJson(orders[1..])
  }

  /** A node as the API sends it. */
  function ConversionJson(c: Conversion): Json {
    JObj([("purchaseTime", JInt(c.purchaseTime)),
          ("conversionStatus", JStr(c.status)),
          ("totalCommission", JFloat(c.commission)),
          ("completeTime", JInt(c.completeTime)),
          ("orders", JArr(OrdersJson(c.orders)))])
  }

  function ConversionsJson(cs: seq<Conversion>): (r: seq<Json>)
    ensures |r| == |cs|
  {
    if |cs| == 0 then [] else [ConversionJson(cs[0])] + ConversionsJson(cs[1..])
  }

  /** The intended row for one (conversion, item) pair. */
  function ItemRow(c: Conversion, it: Item): Row {
    Row(JInt(c.purchaseTime),
        if c.completeTime != 0 then Some(JInt(c.completeTime)) else None,
        JStr(c.status), c.commission, JStr(it.name), JInt(it.qty), it.price)
  }

  function ItemsOf(c: Conversion, items: seq<Item>): seq<Row> {
    seq(|items|, k requires 0 <= k < |items| => ItemRow(c, items[k]))
  }

  function OrdersOf(c: Conversion, orders: seq<Order>): seq<Row> {
    if |orders| == 0 then [] else ItemsOf(c, orders[0].items) + OrdersOf(c, orders[1..])
  }

  /** Reference flattening: node by node, order by order, item by item. */
  function Flatten(cs: seq<Conversion>): seq<Row> {
    if |cs| == 0 then [] else OrdersOf(cs[0], cs[0].orders) + Flatten(cs[1..])
  }

  /** Number of items across a list of orders. */
  function OrderItems(orders: seq<Order>): nat {
    if |orders| == 0 then 0 else |orders[0].items| + OrderItems(orders[1..])
  }

  /** Number of items across all orders of all conversions. */
  function TotalItems(cs: seq<Conversion>): nat {
    if |cs| == 0 then 0 else OrderItems(cs[0].orders) + TotalItems(cs[1..])
  }

  lemma ConversionFields(c: Conversion)
    ensures Subscript(ConversionJson(c), "purchaseTime") == Success(JInt(c.purchaseTime))
    ensures Subscript(ConversionJson(c), "conversionStatus") == Success(JStr(c.status))
    ensures Subscript(ConversionJson(c), "totalCommission") == Success(JFloat(c.commission))
    ensures Subscript(ConversionJson(c), "completeTime") == Success(JInt(c.completeTime))
    ensures GetOr(ConversionJson(c), "orders", JArr([])) == Success(JArr(OrdersJson(c.orders)))
  {
    var fs := ConversionJson(c).fields;
    LookupLast(fs, "purchaseTime", 0);
    LookupLast(fs, "conversionStatus", 1);
    LookupLast(fs, "totalCommission", 2);
    LookupLast(fs, "completeTime", 3);
    LookupLast(fs, "orders", 4);
  }

  lemma ItemFields(it: Item)
    ensures Subscript(ItemJson(it), "itemName") == Success(JStr(it.name))
    ensures Subscript(ItemJson(it), "itemPrice") == Success(JFloat(it.price))
    ensures Subscript(ItemJson(it), "qty") == Success(JInt(it.qty))
  {
    var fs := ItemJson(it).fields;
    LookupLast(fs, "itemName", 0);
    LookupLast(fs, "itemPrice", 1);
    LookupLast(fs, "qty", 2);
  }

  lemma MakeRowOfSchema(c: Conversion, it: Item)
    ensures MakeRow(ConversionJson(c), ItemJson(it)) == Success(ItemRow(c, it))
  {
    ConversionFields(c);
    ItemFields(it);
  }

  /** Amounts sent as decimal strings, as the `float()` calls allow: with all
      seven fields present, a row is made exactly when both strings spell a
      decimal, and it carries the values they spell. */
  lemma MakeRowOfTextAmounts(n: Json, item: Json, commission: string, price: string)
    requires Subscript(n, "purchaseTime").Success? && Subscript(n, "completeTime").Success?
    requires Subscript(n, "conversionStatus").Success?
    requires Subscript(n, "totalCommission") == Success(JStr(commission))
    requires Subscript(item, "itemName").Success? && Subscript(item, "qty").Success?
    requires Subscript(item, "itemPrice") == Success(JStr(price))
    ensures MakeRow(n, item).Success? <==> ParseDecimal(commission).Some? && ParseDecimal(price).Some?
    ensures MakeRow(n, item).Success? ==>
      && Some(MakeRow(n, item).value.commission) == ParseDecimal(commission)
      && Some(MakeRow(n, item).value.itemPrice) == ParseDecimal(price)
    ensures ParseDecimal(commission).None? ==> MakeRow(n, item) == Failure(ValueError)
  {
  }

  /** A node whose commission is sent as the text "12.34", completed at time 0. */
  const TextNode: Json := JObj([("purchaseTime", JInt(1700000000)), ("completeTime", JInt(0)),
                               ("conversionStatus", JStr("PENDING")), ("totalCommission", JStr("12.34"))])

  /** An item whose price is sent as the text "5". */
  const TextItem: Json := JObj([("itemName", JStr("Caneca")), ("qty", JInt(1)), ("itemPrice", JStr("5"))])

  lemma TextNodeFields()
    ensures Subscript(TextNode, "purchaseTime") == Success(JInt(1700000000))
    ensures Subscript(TextNode, "completeTime") == Success(JInt(0))
    ensures Subscript(TextNode, "conversionStatus") == Success(JStr("PENDING"))
    ensures Subscript(TextNode, "totalCommission") == Success(JStr("12.34"))
  {
    var fs := TextNode.fields;
    LookupLast(fs, "purchaseTime", 0);
    LookupLast(fs, "completeTime", 1);
    LookupLast(fs, "conversionStatus", 2);
    LookupLast(fs, "totalCommission", 3);
  }

  lemma TextItemFields()
    ensures Subscript(TextItem, "itemName") == Success(JStr("Caneca"))
    ensures Subscript(TextItem, "qty") == Success(JInt(1))
    ensures Subscript(TextItem, "itemPrice") == Success(JStr("5"))
  {
    var fs := TextItem.fields;
    LookupLast(fs, "itemName", 0);
    LookupLast(fs, "qty", 1);
    LookupLast(fs, "itemPrice", 2);
  }

  /** The two make a row worth 12.34 priced 5; the falsy completion time
      0 becomes NaT. */
  lemma TextAmountExample()
    ensures MakeRow(TextNode, TextItem) ==
      Success(Row(JInt(1700000000), None, JStr("PENDING"), 12.34, JStr("Caneca"), JInt(1), 5.0))
  {
    TextNodeFields();
    TextItemFields();
    DecimalTexts();
    assert !Truthy(JInt(0));
  }

  lemma ItemsOfCons(c: Conversion, items: seq<Item>)
    requires |items| > 0
    ensures ItemsOf(c, items) == [ItemRow(c, items[0])] + ItemsOf(c, items[1..])
  {
    var r := [ItemRow(c, items[0])] + ItemsOf(c, items[1..]);
    assert forall k :: 0 <= k < |items| ==> ItemsOf(c, items)[k] == r[k];
  }

  lemma {:induction false} ItemRowsOfSchema(c: Conversion, items: seq<Item>)
    ensures ItemRows(ConversionJson(c), ItemsJson(items)) == Success(ItemsOf(c, items))
    decreases |items|
  {
    var n := ConversionJson(c);
    var js := ItemsJson(items);
    if |items| > 0 {
      assert js[0] == ItemJson(items[0]) && js[1..] == ItemsJson(items[1..]);
      MakeRowOfSchema(c, items[0]);
      ItemRowsOfSchema(c, items[1..]);
      ItemsOfCons(c, items);
      assert ItemRows(n, js) == Success([ItemRow(c, items[0])] + ItemsOf(c, items[1..]));
    } else {
      assert ItemsOf(c, items) == [];
    }
  }

  lemma {:induction false} OrderListRowsOfSchema(c: Conversion, orders: seq<Order>)
    ensures OrderListRows(ConversionJson(c), OrdersJson(orders)) == Success(OrdersOf(c, orders))
    decreases |orders|
  {
    if |orders| > 0 {
      ItemRowsOfSchema(c, orders[0].items);
      assert OrderRows(ConversionJson(c), OrderJson(orders[0])) == Success(ItemsOf(c, orders[0].items));
      OrderListRowsOfSchema(c, orders[1..]);
    }
  }

  lemma {:induction false} NodeListRowsOfSchema(cs: seq<Conversion>)
    ensures NodeListRows(ConversionsJson(cs)) == Success(Flatten(cs))
    decreases |cs|
  {
    if |cs| > 0 {
      OrderListRowsOfSchema(cs[0], cs[0].orders);
      ConversionFields(cs[0]);
      assert NodeRows(ConversionJson(cs[0])) == Success(OrdersOf(cs[0], cs[0].orders));
      NodeListRowsOfSchema(cs[1..]);
    }
  }

  /** On responses that follow the API's schema, the loop computes exactly the
      reference flattening and never raises. */
  lemma BuildRowsOfSchema(cs: seq<Conversion>)
    ensures BuildRows(JArr(ConversionsJson(cs))) == Success(Flatten(cs))
  {
    NodeListRowsOfSchema(cs);
  }

  lemma {:induction false} OrdersOfLength(c: Conversion, orders: seq<Order>)
    ensures |OrdersOf(c, orders)| == OrderItems(orders)
    decreases |orders|
  {
    if |orders| > 0 {
      OrdersOfLength(c, orders[1..]);
    }
  }

  /** One row per item: the row count is the total number of items. */
  lemma {:induction false} FlattenLength(cs: seq<Conversion>)
    ensures |Flatten(cs)| == TotalItems(cs)
    decreases |cs|
  {
    if |cs| > 0 {
      OrdersOfLength(cs[0], cs[0].orders);
      FlattenLength(cs[1..]);
    }
  }

  lemma {:induction false} OrderItemsSplit(orders: seq<Order>, j: nat)
    requires j < |orders|
    ensures OrderItems(orders) == OrderItems(orders[..j]) + |orders[j].items| + OrderItems(orders[j + 1..])
    decreases j
  {
    if j > 0 {
      assert orders[1..][..j - 1] == orders[..j][1..];
      assert orders[1..][j - 1] == orders[j];
      assert orders[1..][j..] == orders[j + 1..];
      OrderItemsSplit(orders[1..], j - 1);
    }
  }

  lemma {:induction false} OrdersOfAt(c: Conversion, orders: seq<Order>, j: nat, k: nat)
    requires j < |orders| && k < |orders[j].items|
    ensures OrderItems(orders[..j]) + k < |OrdersOf(c, orders)|
    ensures OrdersOf(c, orders)[OrderItems(orders[..j]) + k] == ItemRow(c, orders[j].items[k])
    decreases j
  {
    OrdersOfLength(c, orders);
    OrderItemsSplit(orders, j);
    if j > 0 {
      assert orders[1..][..j - 1] == orders[..j][1..];
      assert orders[1..][j - 1] == orders[j];
      OrdersOfAt(c, orders[1..], j - 1, k);
    }
  }

  /** Nesting order: the row of item k of order j of node i sits at position
      (items of nodes before i) + (items of orders before j) + k and carries
      that node's and that item's fields. */
  lemma {:induction false} FlattenAt(cs: seq<Conversion>, i: nat, j: nat, k: nat)
    requires i < |cs| && j < |cs[i].orders| && k < |cs[i].orders[j].items|
    ensures TotalItems(cs[..i]) + OrderItems(cs[i].orders[..j]) + k < |Flatten(cs)|
    ensures Flatten(cs)[TotalItems(cs[..i]) + OrderItems(cs[i].orders[..j]) + k]
      == ItemRow(cs[i], cs[i].orders[j].items[k])
    decreases i
  {
    FlattenLength(cs);
    OrdersOfLength(cs[0], cs[0].orders);
    if i == 0 {
      OrdersOfAt(cs[0], cs[0].orders, j, k);
    } else {
      assert cs[1..][..i - 1] == cs[..i][1..];
      assert cs[1..][i - 1] == cs[i];
      FlattenAt(cs[1..], i - 1, j, k);
    }
  }

  /** A conversion without items contributes no rows. */
  lemma {:induction false} ItemlessConversion(cs: seq<Conversion>, i: nat)
    requires i < |cs| && OrderItems(cs[i].orders) == 0
    ensures Flatten(cs) == Flatten(cs[..i]) + Flatten(cs[i + 1..])
    decreases i
  {
    OrdersOfLength(cs[i], cs[i].orders);
    if i > 0 {
      assert cs[1..][..i - 1] == cs[..i][1..];
      assert cs[1..][i..] == cs[i + 1..];
      ItemlessConversion(cs[1..], i - 1);
    } else {
      assert cs[1..] == cs[i + 1..];
    }
  }
}

=== FILE: query.dfy ===
/** The conversion-report GraphQL document of `buscar_dados_shopee`, with the
    two purchase-time boundaries interpolated as decimal integers, and a reader
    that recovers the boundaries from the document. */
module Query {
  import opened Wrappers
  import opened Text
  import opened Decimal

  /** Text before the start boundary. */
  const QueryHead: string := "{\n        conversionReport(purchaseTimeStart: "

  /** Text between the two boundaries. */
  const QueryMiddle: string := ", purchaseTimeEnd: "

  /** Text after the end boundary: the fixed page size and the selected fields. */
  const QueryTail: string :=
    ", limit: 100) {\n"
    + "            nodes {\n"
    + "                purchaseTime\n"
    + "                conversionStatus\n"
    + "                totalCommission\n"
    + "                completeTime\n"
    + "                orders {\n"
    + "                    items {\n"
    + "                        itemName\n"
    + "                        itemPrice\n"
    + "                        qty\n"
    + "                    }\n"
    + "                }\n"
    + "            }\n"
    + "        }\n"
    + "    }"

  /** The document for the purchase-time window [tsStart, tsEnd] (Unix seconds). */
  function ConversionQuery(tsStart: int, tsEnd: int): (q: string)
    ensures var a := |QueryHead| + |IntToString(tsStart)|;
      var b := a + |QueryMiddle|;
      && |q| == b + |IntToString(tsEnd)| + |QueryTail|
      && q[..|QueryHead|] == QueryHead
      && q[|QueryHead|..a] == IntToString(tsStart) && ',' !in q[|QueryHead|..a]
      && q[a..b] == QueryMiddle
      && q[b..|q| - |QueryTail|] == IntToString(tsEnd) && ',' !in q[b..|q| - |QueryTail|]
      && q[|q| - |QueryTail|..] == QueryTail
  {
    IntTextHasNoComma(tsStart);
    IntTextHasNoComma(tsEnd);
    PartsOfConcat(QueryHead, IntToString(tsStart), QueryMiddle, IntToString(tsEnd), QueryTail);
    QueryHead + (IntToString(tsStart) + (QueryMiddle + (IntToString(tsEnd) + QueryTail)))
  }

  /** Reads the two boundaries back out of a conversion-report document. */
  function QueryBoundaries(q: string): (r: Option<(int, int)>)
    ensures r.Some? ==> q == ConversionQuery(r.value.0, r.value.1)
  {
    match StripPrefix(QueryHead, q)
    case None => None
    case Some(rest) =>
      var (startText, afterStart) := SplitAt(rest, ',');
      match StripPrefix(QueryMiddle, afterStart)
      case None => None
      case Some(rest2) =>
        var (endText, afterEnd) := SplitAt(rest2, ',');
        if afterEnd != QueryTail then None
        else
          match (ParseInt(startText), ParseInt(endText))
          case (Some(a), Some(b)) =>
            if IntToString(a) == startText && IntToString(b) == endText then Some((a, b)) else None
          case _ => None
  }

  /** The document carries exactly the two boundaries it was built from. */
  lemma QueryBoundariesRoundTrip(tsStart: int, tsEnd: int)
    ensures QueryBoundaries(ConversionQuery(tsStart, tsEnd)) == Some((tsStart, tsEnd))
  {
    var s := IntToString(tsStart);
    var e := IntToString(tsEnd);
    IntTextHasNoComma(tsStart);
    IntTextHasNoComma(tsEnd);
    StripPrefixOfConcat(QueryHead, s + (QueryMiddle + (e + QueryTail)));
    SplitAtOfConcat(s, QueryMiddle + (e + QueryTail), ',');
    StripPrefixOfConcat(QueryMiddle, e + QueryTail);
    SplitAtOfConcat(e, QueryTail, ',');
    ParseIntOfIntToString(tsStart);
    ParseIntOfIntToString(tsEnd);
  }

  /** Different windows give different documents. */
  lemma ConversionQueryInjective(a: int, b: int, a': int, b': int)
    requires ConversionQuery(a, b) == ConversionQuery(a', b')
    ensures a == a' && b == b'
  {
    QueryBoundariesRoundTrip(a, b);
    QueryBoundariesRoundTrip(a', b');
  }
}

=== FILE: request.dfy ===
/** The signed POST of `buscar_dados_shopee`: the body is serialized once and
    that same string is both signed and sent. */
module Request {
  import opened Wrappers
  import opened Signer
  import opened Query
  import opened Body

  const Endpoint: string := "https://open-api.affiliate.shopee.com.br/graphql"

  /** One HTTP POST as the dashboard issues it. */
  datatype Post = Post(url: string, headers: seq<Header>, body: string)

  /** The conversion-report request for the window [tsStart, tsEnd], signed at
      the clock reading `clock`. */
  function ConversionRequest(c: Credentials, clock: real, tsStart: int, tsEnd: int, sha: Digest): (p: Post)
    ensures p.url == Endpoint
    ensures p.headers == SignHeaders(c, clock, p.body, sha)
  {
    var payload := SerializeBody(ConversionQuery(tsStart, tsEnd));
    Post(Endpoint, SignHeaders(c, clock, payload, sha), payload)
  }

  /** The request the dashboard sends passes the API's signature check, and its
      body carries exactly the requested window. */
  lemma ConversionRequestWellFormed(c: Credentials, clock: real, tsStart: int, tsEnd: int, sha: Digest)
    requires ',' !in c.appId
    ensures var p := ConversionRequest(c, clock, tsStart, tsEnd, sha);
      && Accepts(c, p.headers, p.body, sha)
      && ParseBody(p.body) == Some(ConversionQuery(tsStart, tsEnd))
      && QueryBoundaries(ParseBody(p.body).value) == Some((tsStart, tsEnd))
  {
    var p := ConversionRequest(c, clock, tsStart, tsEnd, sha);
    SignedBodyAccepted(c, clock, p.body, sha);
    ParseSerializeBody(ConversionQuery(tsStart, tsEnd));
    QueryBoundariesRoundTrip(tsStart, tsEnd);
  }
}

=== FILE: signer.dfy ===
/** Request signing (`gerar_headers`): the signature is the SHA-256 digest of
    application id, timestamp, payload and secret glued together without
    separators, and the Authorization header carries id, timestamp and that
    digest. The digest itself is a parameter: `sha(f)` stands for the
    lowercase hexadecimal SHA-256 of the UTF-8 bytes of `f`. */
module Signer {
  import opened Wrappers
  import opened Decimal
  import opened Text

  /** Application id and shared secret, as typed into the sidebar. */
  datatype Credentials = Credentials(appId: string, secret: string)

  /** Lowercase hex SHA-256 of the UTF-8 encoding of a string. */
  type Digest = string -> string

  /** An HTTP header as a (name, value) pair. */
  type Header = (string, string)

  const AuthPrefix: string := "SHA256 Credential="
  const TimestampTag: string := ", Timestamp="
  const SignatureTag: string := ", Signature="

  /** The string that is hashed: id, timestamp, payload and secret, no separators. */
  function SigningString(c: Credentials, timestamp: string, payload: string): (f: string)
    ensures |f| == |c.appId| + |timestamp| + |payload| + |c.secret|
    ensures f[..|c.appId|] == c.appId
    ensures f[|c.appId|..|c.appId| + |timestamp|] == timestamp
    ensures f[|c.appId| + |timestamp|..|f| - |c.secret|] == payload
    ensures f[|f| - |c.secret|..] == c.secret
  {
    c.appId + timestamp + payload + c.secret
  }

  /** The value of the Authorization header. */
  function AuthorizationValue(appId: string, timestamp: string, signature: string): (v: string)
    ensures var a := |AuthPrefix| + |appId|;
      var b := a + |TimestampTag| + |timestamp|;
      && |v| == b + |SignatureTag| + |signature|
      && v[..|AuthPrefix|] == AuthPrefix
      && v[|AuthPrefix|..a] == appId
      && v[a..a + |TimestampTag|] == TimestampTag
      && v[a + |TimestampTag|..b] == timestamp
      && v[b..b + |SignatureTag|] == SignatureTag
      && v[b + |SignatureTag|..] == signature
  {
    AuthPrefix + (appId + (TimestampTag + (timestamp + (SignatureTag + signature))))
  }

  /** The timestamp `str(int(time.time()))` for a clock reading in seconds. */
  function TimestampText(clock: real): (t: string)
    ensures ParseInt(t) == Some(Truncate(clock))
    ensures ',' !in t
  {
    ParseIntOfIntToString(Truncate(clock));
    IntToString(Truncate(clock))
  }

  /** `gerar_headers(payload)`: the two request headers for a clock reading. */
  function SignHeaders(c: Credentials, clock: real, payload: string, sha: Digest): (h: seq<Header>)
    ensures |h| == 2
    ensures h[0] == ("Content-Type", "application/json")
    ensures h[1].0 == "Authorization"
  {
    var ts := TimestampText(clock);
    [("Content-Type", "application/json"),
     ("Authorization", AuthorizationValue(c.appId, ts, sha(SigningString(c, ts, payload))))]
  }

  /** The Authorization header names the same id, the clock's timestamp, and
      the digest of exactly the signing string built from the payload. */
  lemma SignHeadersEmbedsSignature(c: Credentials, clock: real, payload: string, sha: Digest)
    requires ',' !in c.appId
    ensures var ts := TimestampText(clock);
      ParseAuthorization(SignHeaders(c, clock, payload, sha)[1].1)
        == Some((c.appId, ts, sha(SigningString(c, ts, payload))))
  {
    var ts := TimestampText(clock);
    ParseAuthorizationRoundTrip(c.appId, ts, sha(SigningString(c, ts, payload)));
  }

  /** Reads (id, timestamp, signature) back out of an Authorization value: the
      id and the timestamp each run up to the next comma. */
  function ParseAuthorization(h: string): (r: Option<(string, string, string)>)
    ensures r.Some? ==> ',' !in r.value.0 && ',' !in r.value.1
  {
    match StripPrefix(AuthPrefix, h)
    case None => None
    case Some(rest) =>
      var (id, afterId) := SplitAt(rest, ',');
      match StripPrefix(TimestampTag, afterId)
      case None => None
      case Some(rest2) =>
        var (ts, afterTs) := SplitAt(rest2, ',');
        match StripPrefix(SignatureTag, afterTs)
        case None => None
        case Some(sig) => Some((id, ts, sig))
  }

  /** Whatever the parser accepts is exactly the header rendered from its parts. */
  lemma ParseAuthorizationSound(h: string)
    requires ParseAuthorization(h).Some?
    ensures var p := ParseAuthorization(h).value;
      AuthorizationValue(p.0, p.1, p.2) == h
  {
    var rest := StripPrefix(AuthPrefix, h).value;
    var split1 := SplitAt(rest, ',');
    var rest2 := StripPrefix(TimestampTag, split1.1).value;
    var split2 := SplitAt(rest2, ',');
    var sig := StripPrefix(SignatureTag, split2.1).value;
    assert ParseAuthorization(h).value == (split1.0, split2.0, sig);
  }

  /** Parsing a header built from comma-free id and timestamp gives them back. */
  lemma ParseAuthorizationRoundTrip(id: string, ts: string, sig: string)
    requires ',' !in id && ',' !in ts
    ensures ParseAuthorization(AuthorizationValue(id, ts, sig)) == Some((id, ts, sig))
  {
    var tail2 := SignatureTag + sig;
    var tail1 := TimestampTag + (ts + tail2);
    StripPrefixOfConcat(AuthPrefix, id + tail1);
    SplitAtOfConcat(id, tail1, ',');
    StripPrefixOfConcat(TimestampTag, ts + tail2);
    SplitAtOfConcat(ts, tail2, ',');
    StripPrefixOfConcat(SignatureTag, sig);
  }

  /** The value of the first header called `name`. */
  function HeaderValue(h: seq<Header>, name: string): (r: Option<string>)
    ensures r.Some? ==> exists i :: 0 <= i < |h| && h[i] == (name, r.value) && forall j :: 0 <= j < i ==> h[j].0 != name
    ensures r.None? ==> forall i :: 0 <= i < |h| ==> h[i].0 != name
  {
    if |h| == 0 then None
    else if h[0].0 == name then Some(h[0].1)
    else
      var r := HeaderValue(h[1..], name);
      assert r.Some? ==> exists i :: 0 <= i < |h| && h[i] == (name, r.value) && forall j :: 0 <= j < i ==> h[j].0 != name by {
        if r.Some? {
          var i :| 0 <= i < |h[1..]| && h[1..][i] == (name, r.value) && forall j :: 0 <= j < i ==> h[1..][j].0 != name;
          assert h[i + 1] == (name, r.value);
          forall j | 0 <= j < i + 1
            ensures h[j].0 != name
          {
            if j > 0 {
              assert h[j] == h[1..][j - 1];
            }
          }
        }
      }
      r
  }

  /** What the API checks: the Authorization header names the account and its
      signature is the digest of id, timestamp, the body received and the secret. */
  predicate Accepts(c: Credentials, h: seq<Header>, body: string, sha: Digest) {
    match HeaderValue(h, "Authorization")
    case None => false
    case Some(v) =>
      match ParseAuthorization(v)
      case None => false
      case Some(parts) =>
        parts.0 == c.appId && parts.2 == sha(SigningString(c, parts.1, body))
  }

  /** Headers signed over a body are accepted together with that same body. */
  lemma SignedBodyAccepted(c: Credentials, clock: real, body: string, sha: Digest)
    requires ',' !in c.appId
    ensures Accepts(c, SignHeaders(c, clock, body, sha), body, sha)
  {
    var h := SignHeaders(c, clock, body, sha);
    SignHeadersEmbedsSignature(c, clock, body, sha);
    assert HeaderValue(h, "Authorization") == Some(h[1].1) by {
      assert h[0].0 != "Authorization";
      assert HeaderValue(h[1..], "Authorization") == Some(h[1].1);
    }
  }

  /** With a collision-free digest, headers signed over one body are refused
      for any other body: the body must be serialized once and sent as signed. */
  lemma OtherBodyRefused(c: Credentials, clock: real, body: string, other: string, sha: Digest)
    requires forall a, b :: sha(a) == sha(b) ==> a == b
    requires ',' !in c.appId
    requires other != body
    ensures !Accepts(c, SignHeaders(c, clock, body, sha), other, sha)
  {
    var h := SignHeaders(c, clock, body, sha);
    var ts := TimestampText(clock);
    assert HeaderValue(h, "Authorization") == Some(h[1].1) by {
      assert h[0].0 != "Authorization";
      assert HeaderValue(h[1..], "Authorization") == Some(h[1].1);
    }
    SignHeadersEmbedsSignature(c, clock, body, sha);
    var f1 := SigningString(c, ts, body);
    var f2 := SigningString(c, ts, other);
    assert f1 != f2 by {
      assert f1[|c.appId| + |ts|..|f1| - |c.secret|] == body;
      assert f2[|c.appId| + |ts|..|f2| - |c.secret|] == other;
    }
    assert sha(f1) != sha(f2);
  }
}

=== FILE: tables.dfy ===
/** The two tables of the dashboard: commission summed per status
    (`groupby("Status do Pedido")[commission].sum()`) and the ten items with
    the largest quantity sold (`groupby("Nome do Item")["Qtd"].sum().nlargest(10)`).
    Both groupings drop rows whose key is missing (None), as pandas does. */
module Tables {
  import opened Wrappers
  import opened Json
  import opened Normalize
  import opened Grouping

  // ---- Commission per status ----

  /** Some row carries this status. */
  predicate HasStatus(rows: seq<Row>, status: Json) {
    exists i :: 0 <= i < |rows| && rows[i].status == status
  }

  /** Reference: the commission of the rows with this status. */
  function CommissionOfStatus(rows: seq<Row>, status: Json): real {
    if |rows| == 0 then 0.0
    else
      var last := rows[|rows| - 1];
      CommissionOfStatus(rows[..|rows| - 1], status) + (if last.status == status then last.commission else 0.0)
  }

  /** The (status, commission) pairs the grouping sees: rows with a None status are dropped. */
  function StatusEntries(rows: seq<Row>): seq<(Json, real)> {
    if |rows| == 0 then []
    else
      var last := rows[|rows| - 1];
      StatusEntries(rows[..|rows| - 1]) + (if last.status == JNull then [] else [(last.status, last.commission)])
  }

  lemma {:induction false} StatusEntriesSpec(rows: seq<Row>)
    ensures forall k :: HasKey(StatusEntries(rows), k) <==> k != JNull && HasStatus(rows, k)
    ensures forall k :: k != JNull ==> SumFor(StatusEntries(rows), k) == CommissionOfStatus(rows, k)
    decreases |rows|
  {
    if |rows| > 0 {
      var n := |rows|;
      var prev := rows[..n - 1];
      var last := rows[n - 1];
      var pe := StatusEntries(prev);
      var e := StatusEntries(rows);
      StatusEntriesSpec(prev);
      var extra: seq<(Json, real)> := if last.status == JNull then [] else [(last.status, last.commission)];
      assert e == pe + extra;
      forall k
        ensures HasKey(e, k) <==> k != JNull && HasStatus(rows, k)
      {
        if HasKey(e, k) {
          var j :| 0 <= j < |e| && e[j].0 == k;
          if j < |pe| {
            assert HasKey(pe, k);
            var i :| 0 <= i < |prev| && prev[i].status == k;
            assert rows[i].status == k;
          } else {
            assert rows[n - 1].status == k;
          }
        }
        if k != JNull && HasStatus(rows, k) {
          var i :| 0 <= i < n && rows[i].status == k;
          if i < n - 1 {
            assert prev[i].status == k;
            assert HasStatus(prev, k);
            assert HasKey(pe, k);
            var j :| 0 <= j < |pe| && pe[j].0 == k;
            assert e[j].0 == k;
          } else {
            assert e[|pe|].0 == k;
          }
        }
      }
      forall k | k != JNull
        ensures SumFor(e, k) == CommissionOfStatus(rows, k)
      {
        if last.status == JNull {
          assert e == pe;
        } else {
          assert e[..|e| - 1] == pe;
        }
      }
    }
  }

  /** A value pandas can use as a group key: lists and dicts are unhashable,
      and grouping on a column holding one raises TypeError. */
  predicate Hashable(v: Json) {
    !v.JArr? && !v.JObj?
  }

  /** Commission per status. An unhashable status raises TypeError; otherwise
      one entry per status that occurs, none for None, each holding the
      commission of exactly the rows with that status. */
  function GroupByStatus(rows: seq<Row>): (r: Result<seq<(Json, real)>, PyError>)
    ensures r.Failure? <==> exists i :: 0 <= i < |rows| && !Hashable(rows[i].status)
    ensures r.Failure? ==> r.error == TypeError
    ensures r.Success? ==> DistinctKeys(r.value)
    ensures r.Success? ==> forall k :: HasKey(r.value, k) <==> k != JNull && HasStatus(rows, k)
    ensures r.Success? ==> forall i :: 0 <= i < |r.value| ==>
      r.value[i].0 != JNull && r.value[i].1 == CommissionOfStatus(rows, r.value[i].0)
  {
    if exists i :: 0 <= i < |rows| && !Hashable(rows[i].status) then Failure(TypeError)
    else
      var e := StatusEntries(rows);
      GroupSumSpec(e);
      StatusEntriesSpec(rows);
      assert forall i :: 0 <= i < |GroupSum(e)| ==> HasKey(GroupSum(e), GroupSum(e)[i].0);
      Success(GroupSum(e))
  }

  // ---- Top ten items by quantity ----

  /** A quantity that keeps the column numeric: a number, or None (NaN, skipped). */
  predicate NumericQty(q: Json) {
    q.JInt? || q.JFloat? || q.JNull?
  }

  /** The quantity column is numeric: every entry is a number or None, and
      not all of them are None (a column of None only is an object column). */
  predicate NumericColumn(rows: seq<Row>) {
    && (forall i :: 0 <= i < |rows| ==> NumericQty(rows[i].qty))
    && (|rows| == 0 || exists i :: 0 <= i < |rows| && rows[i].qty != JNull)
  }

  function QtyValue(q: Json): real {
    match q
    case JInt(i) => i as real
    case JFloat(f) => f
    case _ => 0.0
  }

  predicate HasItem(rows: seq<Row>, name: Json) {
    exists i :: 0 <= i < |rows| && rows[i].itemName == name
  }

  /** Reference: the quantity sold under this item name. */
  function QtySold(rows: seq<Row>, name: Json): real {
    if |rows| == 0 then 0.0
    else
      var last := rows[|rows| - 1];
      QtySold(rows[..|rows| - 1], name) + (if last.itemName == name then QtyValue(last.qty) else 0.0)
  }

  /** The (name, quantity) pairs the grouping sees: rows without a name are dropped. */
  function QtyEntries(rows: seq<Row>): seq<(Json, real)> {
    if |rows| == 0 then []
    else
      var last := rows[|rows| - 1];
      QtyEntries(rows[..|rows| - 1]) + (if last.itemName == JNull then [] else [(last.itemName, QtyValue(last.qty))])
  }

  lemma {:induction false} QtyEntriesSpec(rows: seq<Row>)
    ensures forall k :: HasKey(QtyEntries(rows), k) <==> k != JNull && HasItem(rows, k)
    ensures forall k :: k != JNull ==> SumFor(QtyEntries(rows), k) == QtySold(rows, k)
    decreases |rows|
  {
    if |rows| > 0 {
      var n := |rows|;
      var prev := rows[..n - 1];
      var last := rows[n - 1];
      var pe := QtyEntries(prev);
      var e := QtyEntries(rows);
      QtyEntriesSpec(prev);
      var extra: seq<(Json, real)> := if last.itemName == JNull then [] else [(last.itemName, QtyValue(last.qty))];
      assert e == pe + extra;
      forall k
        ensures HasKey(e, k) <==> k != JNull && HasItem(rows, k)
      {
        if HasKey(e, k) {
          var j :| 0 <= j < |e| && e[j].0 == k;
          if j < |pe| {
            assert HasKey(pe, k);
            var i :| 0 <= i < |prev| && prev[i].itemName == k;
            assert rows[i].itemName == k;
          } else {
            assert rows[n - 1].itemName == k;
          }
        }
        if k != JNull && HasItem(rows, k) {
          var i :| 0 <= i < n && rows[i].itemName == k;
          if i < n - 1 {
            assert prev[i].itemName == k;
            assert HasItem(prev, k);
            assert HasKey(pe, k);
            var j :| 0 <= j < |pe| && pe[j].0 == k;
            assert e[j].0 == k;
          } else {
            assert e[|pe|].0 == k;
          }
        }
      }
      forall k | k != JNull
        ensures SumFor(e, k) == QtySold(rows, k)
      {
        if last.itemName == JNull {
          assert e == pe;
        } else {
          assert e[..|e| - 1] == pe;
        }
      }
    }
  }

  /** The top-ten table. An unhashable item name makes the grouping raise
      TypeError; a quantity column that is not numeric is an object column,
      on which `nlargest` raises TypeError. Otherwise at most ten distinct
      item names, largest quantity first, each with the quantity sold under
      it; an item left out sold no more than the tenth. */
  function Top10(rows: seq<Row>): (r: Result<seq<(Json, real)>, PyError>)
    ensures r.Failure? <==> (exists i :: 0 <= i < |rows| && !Hashable(rows[i].itemName)) || !NumericColumn(rows)
    ensures r.Failure? ==> r.error == TypeError
    ensures r.Success? ==> |r.value| <= 10 && SortedDesc(r.value) && DistinctKeys(r.value)
    ensures r.Success? ==> forall k :: 0 <= k < |r.value| ==>
      r.value[k].0 != JNull && HasItem(rows, r.value[k].0) && r.value[k].1 == QtySold(rows, r.value[k].0)
    ensures r.Success? ==> forall name :: name != JNull && HasItem(rows, name) && !HasKey(r.value, name) ==>
      |r.value| == 10 && QtySold(rows, name) <= r.value[9].1
  {
    if exists i :: 0 <= i < |rows| && !Hashable(rows[i].itemName) then Failure(TypeError)
    else if !NumericColumn(rows) then Failure(TypeError)
    else
      var e := QtyEntries(rows);
      var groups := GroupSum(e);
      var top := Largest(groups, 10);
      assert DistinctKeys(top) by {
        GroupSumSpec(e);
      }
      assert forall k :: 0 <= k < |top| ==>
        top[k].0 != JNull && HasItem(rows, top[k].0) && top[k].1 == QtySold(rows, top[k].0) by {
        GroupSumSpec(e);
        QtyEntriesSpec(rows);
        LargestFromGroups(groups, 10);
        forall k | 0 <= k < |top|
          ensures top[k].0 != JNull && HasItem(rows, top[k].0) && top[k].1 == QtySold(rows, top[k].0)
        {
          var j :| 0 <= j < |groups| && groups[j] == top[k];
          assert HasKey(groups, groups[j].0);
        }
      }
      assert forall name :: name != JNull && HasItem(rows, name) && !HasKey(top, name) ==>
        |top| == 10 && QtySold(rows, name) <= top[9].1 by {
        GroupSumSpec(e);
        QtyEntriesSpec(rows);
        forall name | name != JNull && HasItem(rows, name) && !HasKey(top, name)
          ensures |top| == 10 && QtySold(rows, name) <= top[9].1
        {
          assert HasKey(groups, name);
          var j :| 0 <= j < |groups| && groups[j].0 == name;
          assert groups[j] !in top;
        }
      }
      Success(top)
  }
}

=== FILE: text.dfy ===
/** Small string utilities shared by the renderers and their parsers. */
module Text {
  import opened Wrappers

  /** Position of the first `c` in `s`, or `|s|` when there is none. */
  function IndexOf(s: string, c: char): (k: nat)
    ensures k <= |s|
    ensures forall j :: 0 <= j < k ==> s[j] != c
    ensures k < |s| ==> s[k] == c
  {
    if |s| == 0 then 0
    else if s[0] == c then 0
    else 1 + IndexOf(s[1..], c)
  }

  /** `s` with the prefix `p` removed, when `s` starts with `p`. */
  function StripPrefix(p: string, s: string): (r: Option<string>)
    ensures r.Some? <==> |p| <= |s| && s[..|p|] == p
    ensures r.Some? ==> s == p + r.value
  {
    if |p| <= |s| && s[..|p|] == p then Some(s[|p|..]) else None
  }

  /** Splits `s` just before its first `sep` (or at its end). */
  function SplitAt(s: string, sep: char): (r: (string, string))
    ensures s == r.0 + r.1
    ensures sep !in r.0
    ensures |r.1| > 0 ==> r.1[0] == sep
  {
    var k := IndexOf(s, sep);
    assert s == s[..k] + s[k..];
    (s[..k], s[k..])
  }

  lemma StripPrefixOfConcat(p: string, x: string)
    ensures StripPrefix(p, p + x) == Some(x)
  {
    assert (p + x)[..|p|] == p;
  }

  lemma SplitAtOfConcat(a: string, b: string, sep: char)
    requires sep !in a && |b| >= 1 && b[0] == sep
    ensures SplitAt(a + b, sep) == (a, b)
    decreases |a|
  {
    if |a| > 0 {
      assert (a + b)[1..] == a[1..] + b;
      SplitAtOfConcat(a[1..], b, sep);
    }
  }

  /** Each of five glued parts sits at its own position in the whole. */
  lemma PartsOfConcat(a: string, b: string, c: string, d: string, e: string)
    ensures var q := a + (b + (c + (d + e)));
      && |q| == |a| + |b| + |c| + |d| + |e|
      && q[..|a|] == a
      && q[|a|..|a| + |b|] == b
      && q[|a| + |b|..|a| + |b| + |c|] == c
      && q[|a| + |b| + |c|..|q| - |e|] == d
      && q[|q| - |e|..] == e
  {
  }
}

=== FILE: wrappers.dfy ===
/** How the model writes Python values that may be missing and Python calls
    that may raise. `Option` stands for a lookup that can come back empty
    (a missing header, a text that does not parse); `Result` carries either
    the value a call returns or the `PyError` it raises, and `:-` passes a
    raised error on unchanged, as an uncaught exception leaves the caller. */
module Wrappers {

  /** A value, or nothing. */
  datatype Option<+T> = None | Some(value: T) {

    /** Nothing is what `:-` hands on. */
    predicate IsFailure() {
      None?
    }

    /** Hand on the missing value at another type. */
    function PropagateFailure<U>(): Option<U>
      requires None?
    {
      None
    }

    /** The value `:-` binds when there is one. */
    function Extract(): T
      requires Some?
    {
      value
    }
  }

  /** The outcome of a call: what it returned, or what it raised. */
  datatype Result<+R, +E> = Success(value: R) | Failure(error: E) {

    /** A raised error is what `:-` hands on. */
    predicate IsFailure() {
      Failure?
    }

    /** Re-raise the same error from a caller with another return type. */
    function PropagateFailure<U>(): Result<U, E>
      requires Failure?
    {
      Failure(error)
    }

    /** The returned value `:-` binds. */
    function Extract(): R
      requires Success?
    {
      value
    }
  }
}
